=== FILE: README.md ===
# SenpAI agents: a Dafny model of the tool registry, the tools and the agents

SenpAI is a set of LangGraph agents for new employees, each deployed as a
Bedrock AgentCore application. This project models its core in Dafny and
proves properties of that model.

- **The tool framework.** `ToolFactory` is a class-level registry. The
  `register_tool` decorator stores tool classes under their class name,
  and `create_tool` instantiates them by name. `Tool` is the abstract base
  class, and its `as_langchain_tool` adapter wraps `run` for langchain.
- **Two tools.**
  - `Chat_history_summarize_tool` reads the last conversation turns from
    AgentCore memory. It renders them as a summary, a full transcript or
    JSON.
  - `QuizGeneratorTool` asks a knowledge base for a multiple-choice quiz.
    It cuts the JSON object out of the answer and re-serialises it. When
    anything fails it builds a placeholder quiz.
- **The four agents' graphs and entrypoints.**
  - Every graph has a `chatbot` node. It prepends the persona's system
    message when the history does not start with one, then calls the
    model.
  - The main and training agents add a `tools` node, reached while the
    model keeps requesting tool calls.
  - The advice, communication and training entrypoints read `prompt`,
    `session_id` and `user_id` from the payload; the main entrypoint reads
    only `prompt`. Each then runs its graph.
  - The advice, communication and training agents save the exchange to
    memory.
  - The training agent first reduces its answer to the JSON between the
    first `{` and the last `}`. When that is not valid JSON, it wraps the
    answer in an error envelope.
- **The logging configuration.**
  - The environment reads for level and format.
  - The `dictConfig` dictionary built by `create_logging_config`.
  - The contextual logger adapter.
  - The coloured console formatter.

Python's dynamic values are modelled as `PyValues.Value`: None, bool, int,
str, and dict. An exception is `Outcome.Raised`.

Everything the program gets from outside is a parameter of the model:

- the Bedrock chat model;
- langgraph's ToolNode;
- the AgentCore memory client;
- the knowledge-base call;
- `json.loads`/`json.dumps`, as a `Json.Codec`;
- the environment variables.

The graph the tool-using agents build has no stop condition of its own
while the model keeps requesting tools. langgraph's recursion limit is not
modelled; explicit fuel stands in for it. Running out is reported as
`OutOfFuel` and never counts as an answer.

Modules:

- `PyStrings`: `str.find`/`rfind`, slicing, `join`, and ASCII case
  mapping.
- `PyValues` and `Json`: the value and JSON types.
- `ToolInterface` and `ToolFactory`: the tool framework.
- `ChatHistory` and `QuizGenerator`: the two tools.
- `Graph`: the chatbot/tools graphs.
- `AgentRequests`: the shared entrypoint steps.
- `AdviceAgent`, `CommunicationAgent`, `MainAgent` and `TrainingAgent`:
  the four agents.
- `LoggerConfig`: the logging configuration.

## Model

| member | source | states |
|---|---|---|
| ToolFactory.RegisterTool | core/tools/tool_factory.py:11-14 | the decorator returns the class unchanged; afterwards its class name looks up that class, every other name looks up what it did before; a new name is appended to the listing, a re-registered name keeps its place |
| ToolFactory.CreateTool | core/tools/tool_factory.py:16-20 | an unregistered name raises the "is not registered" ValueError; a registered one calls that class with the given arguments and passes its outcome through |
| ToolFactory.ListTools | core/tools/tool_factory.py:22-24 | the listing has one name per registered class, in registration order |
| ToolFactory.ListedNamesAreCreatable | core/tools/tool_factory.py:16-24 | a name is listed exactly when it can be created; creation raises exactly for unlisted names |
| ToolFactory.KeysOnlyGrow | core/tools/tool_factory.py:9-14 | any sequence of registrations keeps the earlier listing as a prefix: the registry never loses or reorders a name |
| ToolFactory.ZeroArgumentClass | core/tools/libs/quiz_generator_tool.py:18-20 | a class whose `__init__` takes no arguments builds its instance from a bare call and raises TypeError for any argument |
| ToolFactory.LookupByPosition | core/tools/tool_factory.py:13 | since names are distinct, the class at any position is what its name looks up |
| ToolInterface.Description | core/tools/tool_interface.py:24-29 | a tool that does not override `description` describes itself as "" |
| ToolInterface.AsLangchainTool | core/tools/tool_interface.py:31-48 | without the langchain decorator the adapter raises ImportError; otherwise the wrapper carries the tool's name and description and every call of it is the tool's `run` on the same arguments |
| ToolInterface.AdapterPropagatesErrors | core/tools/tool_interface.py:42-43 | an exception raised by `run` escapes the wrapper unchanged |
| ChatHistory.Truncate | core/tools/libs/chat_history_summarize_tool.py:120-122 | texts of at most 100 characters are kept; longer ones become their first 100 characters followed by "..." |
| ChatHistory.TruncateIdempotent | core/tools/libs/chat_history_summarize_tool.py:120-122 | truncating a snippet again changes nothing, and no snippet exceeds 103 characters |
| ChatHistory.OfRole | core/tools/libs/chat_history_summarize_tool.py:114-122 | the messages collected for a role are exactly the turn's messages whose upper-cased role is that role |
| ChatHistory.Snippets | core/tools/libs/chat_history_summarize_tool.py:116-122 | one snippet per collected message, each the truncated text of that message |
| ChatHistory.TurnLineDependsOnlyOnRoles | core/tools/libs/chat_history_summarize_tool.py:109-129 | two turns with the same USER and ASSISTANT messages give the same summary line |
| ChatHistory.OtherRolesDropped | core/tools/libs/chat_history_summarize_tool.py:119-122 | a message of any other role (including a missing one) adds nothing to the summary line |
| ChatHistory.OfRoleSnoc | core/tools/libs/chat_history_summarize_tool.py:114-122 | collecting over a turn with one more message appends that message exactly when its role matches |
| ChatHistory.SummaryLines | core/tools/libs/chat_history_summarize_tool.py:109-131 | one line per turn, the k-th numbered from 1 + k |
| ChatHistory.FormatSummary | core/tools/libs/chat_history_summarize_tool.py:104-133 | no turns gives "No conversation history available."; otherwise the header and one line per numbered turn, joined by newlines |
| ChatHistory.MessageLines | core/tools/libs/chat_history_summarize_tool.py:153-161 | each message gives a "ROLE: text" line, followed by a time line exactly when its timestamp is not "N/A" |
| ChatHistory.UnknownRole | core/tools/libs/chat_history_summarize_tool.py:154 | a message without a role is shown as UNKNOWN |
| ChatHistory.FormatFullHistory | core/tools/libs/chat_history_summarize_tool.py:145-163 | no turns gives "No conversation history available."; otherwise the text starts with the "Complete Chat History" header and its rule of 50 "=", and is the header and the per-turn parts joined by newlines |
| ChatHistory.FullPartsAppend | core/tools/libs/chat_history_summarize_tool.py:150-161 | the transcript of two runs of turns is the first's followed by the second's, numbering continued |
| ChatHistory.SingleTurnParts | core/tools/libs/chat_history_summarize_tool.py:150-161 | a turn contributes its "--- Turn i ---" marker, then its messages' lines |
| ChatHistory.TurnMessageLinesAppend | core/tools/libs/chat_history_summarize_tool.py:153-161 | a turn's lines are the concatenation of its messages' lines |
| ChatHistory.FullPartsCount | core/tools/libs/chat_history_summarize_tool.py:150-161 | the transcript has one marker per turn plus one line per message plus one per timed message |
| ChatHistory.TurnMessageLinesCount | core/tools/libs/chat_history_summarize_tool.py:153-161 | a turn yields one line per message plus one per message with a timestamp |
| ChatHistory.ActorId | core/tools/libs/chat_history_summarize_tool.py:47 | the actor is the context's actor_id when truthy and its user_id otherwise |
| ChatHistory.FormatType | core/tools/libs/chat_history_summarize_tool.py:53 | format_type defaults to "summary" and is lower-cased; a non-string value raises AttributeError |
| ChatHistory.FormatTypeIgnoresCase | core/tools/libs/chat_history_summarize_tool.py:53 | a format-type string selects the json output exactly when its lower-case form is "json"; upper-casing it changes nothing |
| ChatHistory.JsonSpellings | core/tools/libs/chat_history_summarize_tool.py:53 | "JSON", "Json" and "json" all lower-case to "json" |
| ChatHistory.Run | core/tools/libs/chat_history_summarize_tool.py:46-62 | the only exception comes from reading format_type; otherwise a missing memory id, then a missing actor, then a missing session each return their message, in that order |
| ChatHistory.GuardedRunIgnoresBackend | core/tools/libs/chat_history_summarize_tool.py:55-62 | when a guard fails, memory is never consulted |
| ChatHistory.RunRetrieves | core/tools/libs/chat_history_summarize_tool.py:64-87 | memory is asked for k=10 turns of the resolved actor by default; no turns gives the "No chat history found" message, and the format picks json, full or summary rendering |
| ChatHistory.RunReportsFailure | core/tools/libs/chat_history_summarize_tool.py:89-92 | a failing retrieval is returned as "Failed to retrieve chat history: " and the error text, never raised |
| ChatHistory.RunAsWritten | core/tools/libs/chat_history_summarize_tool.py:46 | `run` first looks up `self.get_context`: without that attribute it raises AttributeError, with it it behaves as `Run` |
| ChatHistory.RunAsWrittenAlwaysRaises | core/tools/libs/chat_history_summarize_tool.py:12-46 | with the attributes the class and `Tool` actually define, every call raises AttributeError, whatever the context and arguments, so no guard message is ever returned |
| QuizGenerator.ReadParams | core/tools/libs/quiz_generator_tool.py:40-43 | parameters come from the nested "kwargs" dict with defaults "IT知識", "初級" and 3; a non-dict "kwargs" raises AttributeError |
| QuizGenerator.TopLevelKeywordsIgnored | core/tools/libs/quiz_generator_tool.py:40 | only the nested "kwargs" entry is read: any other top-level keyword changes nothing |
| QuizGenerator.ExtractBraces | core/tools/libs/quiz_generator_tool.py:83-86 | a candidate exists exactly when the answer holds both braces; it spans the first "{" to the last "}", and is empty when they are out of order |
| QuizGenerator.ExtractBracesIsWidest | core/tools/libs/quiz_generator_tool.py:83-86 | a non-empty candidate begins with "{", ends with "}", and has no brace of either kind outside it |
| QuizGenerator.FallbackCount | core/tools/libs/quiz_generator_tool.py:100-103 | an int count gives that many items (none when negative), a bool counts as 0 or 1, anything else raises TypeError |
| QuizGenerator.FallbackQuiz | core/tools/libs/quiz_generator_tool.py:99-104 | the placeholder quiz has the four keys in order, each a list of `count` items: numbered questions about the topic, the placeholder choices, answer "A", numbered explanations |
| QuizGenerator.Fallback | core/tools/libs/quiz_generator_tool.py:93-104 | the handler serialises the placeholder quiz, or raises the count's TypeError |
| QuizGenerator.Run | core/tools/libs/quiz_generator_tool.py:40-44 | a malformed "kwargs" raises before the try block and is never turned into a fallback |
| QuizGenerator.RunReserialises | core/tools/libs/quiz_generator_tool.py:83-89 | an answer whose braced part parses is returned as that JSON re-serialised |
| QuizGenerator.RunFallsBack | core/tools/libs/quiz_generator_tool.py:44-104 | every failure inside the try block (the knowledge-base call raising, a missing brace, unparsable extracted text) gives the fallback |
| QuizGenerator.RunDichotomy | core/tools/libs/quiz_generator_tool.py:44-104 | once the parameters are read, the result is either the fallback or the re-serialisation of what the parser produced from the extracted answer |
| QuizGenerator.MissingBraceFallsBack | core/tools/libs/quiz_generator_tool.py:85-104 | an answer missing either brace gives the fallback quiz |
| QuizGenerator.DefaultFallback | core/tools/libs/quiz_generator_tool.py:41-104 | a failing knowledge-base call with no arguments gives three IT知識 placeholder questions answered "A" |
| QuizGenerator.RegistryKeyIsClassName | core/tools/libs/quiz_generator_tool.py:7-24 | the tool is registered under "QuizGeneratorTool", its class name, while langchain sees the name "generate_quiz" |
| Graph.WithSystemMessage | senpai-main-agent/senpai-main-agent.py:135-137 | the model always sees a system message first, and at most one message is added to the history |
| Graph.InjectionKeepsHistory | senpai-main-agent/senpai-main-agent.py:135-137 | the history reaches the model whole, as the tail of what the model sees; it is passed untouched exactly when it already starts with a system message, and otherwise the persona's message is put in front |
| Graph.InjectionIdempotent | senpai-main-agent/senpai-main-agent.py:136-137 | injecting twice is injecting once |
| Graph.ExactlyOneSystemMessage | senpai-main-agent/senpai-main-agent.py:136-137 | a history without system messages reaches the model with exactly one |
| Graph.ChatbotNode | senpai-main-agent/senpai-main-agent.py:133-140 | the node's state update is the model's reply alone, and a failing model call fails the node |
| Graph.ToolsCondition | senpai-main-agent/senpai-main-agent.py:150-153 | the graph goes to the tools exactly when the last message is an AI message requesting at least one tool call |
| Graph.ChatStep | senpai-main-agent/senpai-main-agent.py:133-154 | one pass through chatbot, condition and tools: a crash comes from the model or a tool; a completed pass appends the model's reply, which requests no tools; a continuing pass extends the state, first with the model's reply, which requests at least one tool |
| Graph.RunToolLoopShape | senpai-main-agent/senpai-main-agent.py:143-157 | a finished run only appended to its initial state, and ends on the AI message it reports, which requests no tools |
| Graph.FuelMonotone | senpai-main-agent/senpai-main-agent.py:150-154 | once some fuel decides the run, more fuel gives the same result |
| Graph.AlwaysRequestingToolsNeverEnds | senpai-main-agent/senpai-main-agent.py:150-154 | a model that always requests a tool keeps the loop running for any fuel: the graph's own wiring has no stop condition while tools are requested |
| Graph.SystemMessageNeverStored | senpai-main-agent/senpai-main-agent.py:136-140 | the injected system message never enters the graph state |
| Graph.OneToolRoundTrip | senpai-main-agent/senpai-main-agent.py:143-157 | a tool request, its tool message and a final reply leave exactly those three messages after the seed |
| Graph.RunSingleNode | senpai_advice_agent/senpai_advice_agent.py:68-81 | the single-node graph always finishes: it crashes exactly when the model raises, and otherwise appends the one reply |
| Graph.SingleNodeCallsModelOnce | senpai_advice_agent/senpai_advice_agent.py:68-81 | the run depends on the model at the injected history only |
| AgentRequests.ReadPayload | senpai_advice_agent/senpai_advice_agent.py:89-91 | prompt, session_id and user_id come from the payload when present; the defaults are None, "default_session" and "default_user" |
| AgentRequests.OtherPayloadKeysIgnored | senpai_advice_agent/senpai_advice_agent.py:89-91 | no other payload key influences the request |
| AgentRequests.Seed | senpai_advice_agent/senpai_advice_agent.py:93 | the graph starts from a single human message carrying the prompt and no system message |
| AgentRequests.MemoryId | senpai_advice_agent/senpai_advice_agent.py:101 | AWS_MEMORY_ID is used when set, the agent's default otherwise |
| AgentRequests.ExchangeEvent | senpai_advice_agent/senpai_advice_agent.py:99-104 | the saved event is the prompt as USER then the answer as ASSISTANT, under the user id as actor and the session id |
| AgentRequests.HandleSingleNode | senpai_advice_agent/senpai_advice_agent.py:87-109 | the answer is the content of the model's reply to the injected seed; that exchange is saved, and a failed save is recorded, not raised |
| AgentRequests.SingleNodeAnswerIgnoresMemory | senpai_advice_agent/senpai_advice_agent.py:97-109 | whether memory succeeds or fails, the answer and the event saved are the same |
| AgentRequests.SingleNodeOneModelCall | senpai_advice_agent/senpai_advice_agent.py:93-95 | the request depends on the model only through its reply to the injected seed |
| AgentRequests.SingleNodeModelInput | senpai_advice_agent/senpai_advice_agent.py:93-95 | the model sees the system message and then the human message |
| AdviceAgent.Handle | senpai_advice_agent/senpai_advice_agent.py:86-109 | one model call on the persona and the prompt; the reply's content is returned and saved with the prompt, under "advice_memory-default" unless AWS_MEMORY_ID is set |
| AdviceAgent.BarePayloadDefaults | senpai_advice_agent/senpai_advice_agent.py:89-104 | a payload with only a prompt is saved for "default_user" in "default_session", whatever the memory client does |
| CommunicationAgent.Handle | senpai_communication_agent/senpai_communication_agent.py:81-104 | as the advice agent, with default memory id "conversation_memory-y0ttEoDG5r" |
| CommunicationAgent.BarePayloadDefaults | senpai_communication_agent/senpai_communication_agent.py:84-99 | a payload with only a prompt is saved for "default_user" in "default_session" |
| MainAgent.Handle | senpai-main-agent/senpai-main-agent.py:165-176 | the answer is the content of the AI message that ends the tool loop; an exception in the loop escapes |
| MainAgent.OnlyPromptRead | senpai-main-agent/senpai-main-agent.py:170-173 | no payload key other than "prompt" changes the outcome |
| MainAgent.DirectAnswer | senpai-main-agent/senpai-main-agent.py:165-176 | a reply without tool calls is the answer after one model call |
| MainAgent.ToolFailureEscapes | senpai-main-agent/senpai-main-agent.py:147-154 | a ToolNode that raises fails the request with that exception |
| MainAgent.NoTerminationGuarantee | senpai-main-agent/senpai-main-agent.py:150-154 | a model that keeps requesting tools gets no answer from the graph's wiring, for any fuel |
| TrainingAgent.Instantiate | senpai_training_agent/senpai_training_agent.py:33 | every registered class is called with no arguments, in registry order; the first failing constructor's exception is raised |
| TrainingAgent.AdaptAll | senpai_training_agent/senpai_training_agent.py:34 | each instance is adapted in order; without the decorator any non-empty tool list raises ImportError |
| TrainingAgent.BoundTools | senpai_training_agent/senpai_training_agent.py:33-34 | one bound tool per registered class |
| TrainingAgent.BoundToolsFollowRegistry | senpai_training_agent/senpai_training_agent.py:33-34 | the i-th bound tool carries the name of the i-th registered class's instance and runs that instance |
| TrainingAgent.CreateAgent | senpai_training_agent/senpai_training_agent.py:32-35 | the agent exists exactly when all registered tools can be built and adapted, and is bound to exactly those tools |
| TrainingAgent.JsonSlice | senpai_training_agent/senpai_training_agent.py:123-125 | with both braces in order the slice runs from the first "{" to the last "}"; with "{" but no "}" after it, or out of order, it is empty; without "{" it is "" or "}" |
| TrainingAgent.JsonSliceIsPiece | senpai_training_agent/senpai_training_agent.py:123-125 | whatever the answer, the slice is a contiguous piece of it |
| TrainingAgent.BracesLocated | senpai_training_agent/senpai_training_agent.py:123-125 | once the first "{" and the last "}" are located in order, the slice is the text from one to the other |
| TrainingAgent.NoOpeningBraceSlice | senpai_training_agent/senpai_training_agent.py:123-125 | without "{", find returns -1 and the slice starts at the last character, so it is "" or "}" |
| TrainingAgent.WrappedObjectSlice | senpai_training_agent/senpai_training_agent.py:123-125 | prose around a single braced object is stripped off exactly |
| TrainingAgent.SliceAgreesWithQuizTool | senpai_training_agent/senpai_training_agent.py:123-125 | when both braces occur, the agent cuts the same text as the quiz tool |
| TrainingAgent.ErrorEnvelope | senpai_training_agent/senpai_training_agent.py:129-132 | the envelope carries the fixed "無効なJSON形式です" error and the raw answer as message |
| TrainingAgent.PostProcess | senpai_training_agent/senpai_training_agent.py:121-132 | the slice is returned when it parses, and the serialised envelope otherwise |
| TrainingAgent.PostProcessDichotomy | senpai_training_agent/senpai_training_agent.py:121-132 | the result is either parseable JSON cut from the answer or the envelope |
| TrainingAgent.NoOpeningBraceGivesEnvelope | senpai_training_agent/senpai_training_agent.py:123-132 | an answer without "{" always ends in the envelope |
| TrainingAgent.Handle | senpai_training_agent/senpai_training_agent.py:109-146 | the tool loop's final content is post-processed, returned and saved under "genquiz_memory-U5BEjJ8NGy" unless AWS_MEMORY_ID is set; loop exceptions escape |
| TrainingAgent.AnswerIgnoresMemory | senpai_training_agent/senpai_training_agent.py:134-146 | the memory client never changes the answer |
| TrainingAgent.DirectReply | senpai_training_agent/senpai_training_agent.py:113-132 | a direct reply to the bare prompt is post-processed into the answer |
| LoggerConfig.GetLogLevel | core/logger/logger_config.py:96-98 | LOG_LEVEL upper-cased, "INFO" when unset |
| LoggerConfig.GetLogFormat | core/logger/logger_config.py:101-103 | LOG_FORMAT lower-cased, "console" when unset |
| LoggerConfig.EnvironmentReadsNormalise | core/logger/logger_config.py:96-103 | reading a value already normalised gives it back, and the level read ignores case |
| LoggerConfig.CreateLoggingConfig | core/logger/logger_config.py:106-191 | version 1 without disabling loggers; both formatters; a console handler at the level and format; seven loggers, "senpai" at the level, four library loggers at WARNING and uvicorn/starlette at INFO, none propagating; a file handler on every logger and the root exactly when a non-empty log file is given |
| LoggerConfig.AddFileHandler | core/logger/logger_config.py:176-189 | the rotating file handler (10485760 bytes, 5 backups, json) is appended after the existing handlers, "file" is appended to every logger's and to root's handlers, and nothing else changes |
| LoggerConfig.FileHandlerOnlyAdds | core/logger/logger_config.py:176-189 | an empty log file name is no log file; a non-empty one changes nothing but the added handler and "file" entries |
| LoggerConfig.LibraryLevelsFixed | core/logger/logger_config.py:132-168 | the library loggers' levels do not depend on the requested level |
| LoggerConfig.PutIfTruthy | core/logger/logger_config.py:286-291 | an id enters the context only when truthy |
| LoggerConfig.GetContextualLogger | core/logger/logger_config.py:263-295 | the adapter's logger name defaults to "senpai"; every extra keyword is in the context with its value, the ids only when truthy, and nothing else |
| LoggerConfig.IdsComeFromTheirParameters | core/logger/logger_config.py:263-293 | an id in the context is always its own named parameter's value: extra keywords cannot override it |
| LoggerConfig.Process | core/logger/logger_config.py:253-260 | the call's extra keeps its own keys and takes the adapter's context over them; a non-dict extra raises AttributeError; message and other keywords pass through |
| LoggerConfig.ProcessIdempotent | core/logger/logger_config.py:256-258 | processing a processed call again changes nothing |
| LoggerConfig.ColorFor | core/logger/logger_config.py:51-62 | the five level names get their colours, and any other level exactly the reset code |
| LoggerConfig.ContextParts | core/logger/logger_config.py:76-82 | req_id, user and session segments in that order, one for each id attribute the record has |
| LoggerConfig.ConsoleParts | core/logger/logger_config.py:68-85 | the bracketed context segment, when there is one, sits just before the message |
| LoggerConfig.ConsoleFormat | core/logger/logger_config.py:87-91 | exception text, when present, ends the output after a newline |
| LoggerConfig.ConsoleAppendsTrace | core/logger/logger_config.py:87-91 | with exception text the output is the line the record gives without it, a newline, and the text |
| LoggerConfig.ConsoleLineShape | core/logger/logger_config.py:68-87 | the line starts with the coloured level tag and ends with "- " and the message |
| LoggerConfig.ContextSegmentOnlyForIds | core/logger/logger_config.py:76-85 | record attributes other than the three ids never show in the console line |
| PyStrings.Find | core/tools/libs/quiz_generator_tool.py:83 | `find` gives the first occurrence, -1 exactly when absent |
| PyStrings.RFind | core/tools/libs/quiz_generator_tool.py:84 | `rfind` gives the last occurrence, -1 exactly when absent |
| PyStrings.SliceBound | senpai_training_agent/senpai_training_agent.py:125 | slice indices are clamped and negative ones count from the end |
| PyStrings.SliceIsPiece | senpai_training_agent/senpai_training_agent.py:125 | any slice is a contiguous piece of the string |
| PyValues.TimesTen | core/tools/libs/chat_history_summarize_tool.py:73 | `max_turns * 10` multiplies ints, repeats strings, and raises for None and dicts |

## Findings

| source | as written | input that shows it | evidently intended | confidence | as-written member | corrected member |
|---|---|---|---|---|---|---|
| core/tools/libs/chat_history_summarize_tool.py:46-48 | `run` reads its memory id, actor and session through `self.get_context`, which neither the class nor `Tool` defines | any call, e.g. `run()` with no arguments, raises AttributeError before the guards | the three ids come from the agent's request context, and the documented guard messages are returned when one is missing | high (not executed) | ChatHistory.RunAsWrittenAlwaysRaises | ChatHistory.Run |

The rest of the model uses `ChatHistory.Run`, which receives the context as
an explicit map. `ChatHistory.GuardedRunIgnoresBackend`,
`ChatHistory.RunRetrieves` and `ChatHistory.RunReportsFailure` are proved
about it.

## Left out

- The calculator and joke tools, `starlette_logger.py`, the deploy and test scripts, and the `prompt.py` files are not part of this model. The persona texts are a `system` string parameter.
- The Bedrock chat model, langgraph's ToolNode, the AgentCore memory client, and the knowledge-base `retrieve_and_generate` call are parameters. Their behaviour, network access and credentials are outside the model.
- langgraph's `add_messages` reducer is modelled as plain append. Message ids, and its replacement of a message that has the id of an existing one, are not modelled.
- An AI message's content is a string in the model. langchain also allows a list of content blocks; with such a reply the training agent's `find` raises inside its bare `except`, and it returns the error envelope. The main agent would return the list itself.
- `json.loads`/`json.dumps` are the `Json.Codec` parameter, because JSON text syntax is not modelled. `json.dumps(turns, indent=2, default=str)` is the `dumpTurns` parameter of the memory backend.
- The query template text and the knowledge-base id, model ARN and region are not modelled. The query records only the three parameters it interpolates.
- JSON numbers are integers only in the model (`Json.JNumber` holds an `int`), so the floats `json.loads` can return are not modelled. No stated property depends on a number's value.
- Python floats and lists are not values of the model. `str()` of a dict is carried as given text, because Python's repr escaping is out of scope.
- Case mapping (`upper`, `lower`) is modelled for ASCII letters only. Python's full Unicode mapping is not modelled.
- `print` output, logger calls and `setup_logger`/`get_logger` are not modelled. They are side effects, and `logging.config.dictConfig` is a foreign call. The `JSONFormatter` class and timestamp formatting are not modelled either. The timestamp is a string field of the record.
- The langchain `tool` decorator's own checks (docstring requirements, argument schema) are not modelled. Neither is `HumanMessage`'s validation of its content, so a `None` prompt is carried as a value.
- langgraph's `recursion_limit` (25 super-steps by default, raising `GraphRecursionError`) is not modelled. The `fuel` of `Graph.RunToolLoop` stands in for it, and `OutOfFuel` stands in for that error; it is never an answer. `Graph.AlwaysRequestingToolsNeverEnds` shows only that the graph's own wiring has no stop condition while the model requests tools.
- Message fields that are present but hold None or a non-string (role, timestamp, a content's `text`) are not modelled. For a `text` of None in a USER or ASSISTANT message, the summary's `len(text)` would raise inside the try and give the "Failed to retrieve chat history" message, and the full view would print "None". Each message field is either absent or a string.
- ChatHistory.Run: the context comes from an explicit map, not from `self.get_context`. See Findings.
- ToolFactory.ZeroArgumentClass: the TypeError message for unexpected arguments is approximate. Only its kind is stated.
- LoggerConfig.GetContextualLogger: positional calls are not modelled. All arguments arrive as one keyword map. The `context.update(extra_context)` override cannot reach the ids, as `LoggerConfig.IdsComeFromTheirParameters` proves.
- LoggerConfig.Process: the in-place update of the caller's own `extra` dict, which aliases it, is not modelled. Neither is the logging module's later rejection of reserved record keys.
- The class attribute `memory_client` of the chat-history tool, created at import time, is the `MemoryBackend` parameter.

=== FILE: advice_agent.dfy ===
/** The advice agent's entrypoint: a single-node chatbot graph (no tools),
    payload defaults, and the exchange saved to memory under the memory id
    from the environment, "advice_memory-default" when unset. The persona text is
    the `system` parameter. */
module AdviceAgent {
  import opened PyValues
  import opened Graph
  import opened AgentRequests

  const DefaultMemoryId := "advice_memory-default"

  function Handle(payload: map<string, Value>, model: Model, system: string, env: Option<string>, memory: MemoryClient): (r: Completion<Reply>)
    ensures !r.OutOfFuel?
    ensures r.Crashed? <==> model([SystemMessage(system), HumanMessage(ReadPayload(payload).prompt)]).Raised?
    ensures r.Completed? ==>
      r.value.answer == model([SystemMessage(system), HumanMessage(ReadPayload(payload).prompt)]).value.content
    ensures r.Completed? && env.None? ==> r.value.saved.memoryId == "advice_memory-default"
    ensures r.Completed? ==> r.value.saved.messages == [(ReadPayload(payload).prompt, "USER"), (VStr(r.value.answer), "ASSISTANT")]
    ensures r.Completed? ==> r.value.saveOutcome == memory(r.value.saved)
  {
    SingleNodeModelInput(payload, system);
    HandleSingleNode(payload, model, system, env, DefaultMemoryId, memory)
  }

  /** A bare payload with a prompt is saved under the default user and
      session ids, and the memory outcome, failure included, leaves the
      returned answer unchanged. */
  lemma BarePayloadDefaults(prompt: Value, model: Model, system: string, m1: MemoryClient, m2: MemoryClient)
    requires model([SystemMessage(system), HumanMessage(prompt)]).Returned?
    ensures var r := Handle(map["prompt" := prompt], model, system, None, m1);
      && r.Completed?
      && r.value.saved == MemoryEvent("advice_memory-default", VStr("default_user"), VStr("default_session"),
           [(prompt, "USER"), (VStr(model([SystemMessage(system), HumanMessage(prompt)]).value.content), "ASSISTANT")])
      && r.value.answer == Handle(map["prompt" := prompt], model, system, None, m2).value.answer
  {
    SingleNodeAnswerIgnoresMemory(map["prompt" := prompt], model, system, None, DefaultMemoryId, m1, m2);
  }
}

=== FILE: agent_requests.dfy ===
/** What the agents' `langgraph_bedrock` entrypoints share: reading the
    payload with its defaults, seeding the graph with one human message,
    and the memory event that records one exchange. The memory client's
    `create_event` is a parameter; its failure is recorded in the reply
    (the source prints it) and never changes the answer. */
module AgentRequests {
  import opened PyValues
  import opened Graph

  const DefaultSessionId := VStr("default_session")
  const DefaultUserId := VStr("default_user")

  /** `payload.get("prompt")`, `payload.get("session_id", "default_session")`
      and `payload.get("user_id", "default_user")`. */
  datatype Request = Request(prompt: Value, sessionId: Value, userId: Value)

  function ReadPayload(payload: map<string, Value>): (r: Request)
    ensures "prompt" in payload ==> r.prompt == payload["prompt"]
    ensures "prompt" !in payload ==> r.prompt == VNone
    ensures "session_id" in payload ==> r.sessionId == payload["session_id"]
    ensures "session_id" !in payload ==> r.sessionId == DefaultSessionId
    ensures "user_id" in payload ==> r.userId == payload["user_id"]
    ensures "user_id" !in payload ==> r.userId == DefaultUserId
  {
    Request(
      Get(payload, "prompt", VNone),
      Get(payload, "session_id", DefaultSessionId),
      Get(payload, "user_id", DefaultUserId))
  }

  /** Only the three documented keys are read: any other payload entry is
      ignored. */
  lemma OtherPayloadKeysIgnored(payload: map<string, Value>, key: string, v: Value)
    requires key != "prompt" && key != "session_id" && key != "user_id"
    ensures ReadPayload(payload[key := v]) == ReadPayload(payload)
  {
  }

  /** The graph's initial state: exactly one human message carrying the prompt. */
  function Seed(r: Request): (state: seq<ChatMessage>)
    ensures |state| == 1 && state[0].HumanMessage? && state[0].content == r.prompt
    ensures NoSystemMessage(state)
  {
    [HumanMessage(r.prompt)]
  }

  /** `os.getenv("AWS_MEMORY_ID", default)`: the default only when unset. */
  function MemoryId(env: Option<string>, default: string): (id: string)
    ensures env.Some? ==> id == env.value
    ensures env.None? ==> id == default
  {
    env.GetOr(default)
  }

  /** The arguments of one `create_event` call. */
  datatype MemoryEvent = MemoryEvent(
    memoryId: string,
    actorId: Value,
    sessionId: Value,
    messages: seq<(Value, string)>)

  type MemoryClient = MemoryEvent -> Outcome<Value>

  /** The event recording one exchange: the user's prompt then the stored
      answer, under the request's user id (as actor) and session id. */
  function ExchangeEvent(memoryId: string, r: Request, stored: string): (e: MemoryEvent)
    ensures e.memoryId == memoryId && e.actorId == r.userId && e.sessionId == r.sessionId
    ensures |e.messages| == 2
    ensures e.messages[0] == (r.prompt, "USER")
    ensures e.messages[1] == (VStr(stored), "ASSISTANT")
  {
    MemoryEvent(memoryId, r.userId, r.sessionId, [(r.prompt, "USER"), (VStr(stored), "ASSISTANT")])
  }

  /** A handled request: the text returned, the event handed to memory, and
      what the memory call did (a raised exception is caught and printed). */
  datatype Reply = Reply(answer: string, saved: MemoryEvent, saveOutcome: Outcome<Value>)

  /** The entrypoint of the advice and communication agents: one run of the
      single-node graph, the last message's content as the answer, then the
      exchange saved to memory. A failing model call is not caught. */
  function HandleSingleNode(
    payload: map<string, Value>, model: Model, system: string,
    env: Option<string>, defaultMemoryId: string, memory: MemoryClient): (r: Completion<Reply>)
    ensures !r.OutOfFuel?
    ensures r.Crashed? <==> model(WithSystemMessage(system, Seed(ReadPayload(payload)))).Raised?
    ensures r.Crashed? ==> r.error == model(WithSystemMessage(system, Seed(ReadPayload(payload)))).error
    ensures r.Completed? ==> r.value.answer == model(WithSystemMessage(system, Seed(ReadPayload(payload)))).value.content
    ensures r.Completed? ==> r.value.saved == ExchangeEvent(MemoryId(env, defaultMemoryId), ReadPayload(payload), r.value.answer)
    ensures r.Completed? ==> r.value.saveOutcome == memory(r.value.saved)
  {
    var request := ReadPayload(payload);
    match RunSingleNode(model, system, Seed(request))
    case Crashed(e) => Crashed(e)
    case OutOfFuel => OutOfFuel
    case Completed(finish) =>
      var answer := finish.state[|finish.state| - 1].reply.content;
      var event := ExchangeEvent(MemoryId(env, defaultMemoryId), request, answer);
      Completed(Reply(answer, event, memory(event)))
  }

  /** Persistence never affects the answer: two memory clients, one of which
      may fail, give the same answer and save the same event. */
  lemma SingleNodeAnswerIgnoresMemory(
    payload: map<string, Value>, model: Model, system: string,
    env: Option<string>, defaultMemoryId: string, m1: MemoryClient, m2: MemoryClient)
    ensures HandleSingleNode(payload, model, system, env, defaultMemoryId, m1).Completed?
      == HandleSingleNode(payload, model, system, env, defaultMemoryId, m2).Completed?
    ensures HandleSingleNode(payload, model, system, env, defaultMemoryId, m1).Completed? ==>
      && HandleSingleNode(payload, model, system, env, defaultMemoryId, m1).value.answer
         == HandleSingleNode(payload, model, system, env, defaultMemoryId, m2).value.answer
      && HandleSingleNode(payload, model, system, env, defaultMemoryId, m1).value.saved
         == HandleSingleNode(payload, model, system, env, defaultMemoryId, m2).value.saved
  {
  }

  /** One model call per request: the entrypoint's result depends on the
      model only at the injected seed. */
  lemma SingleNodeOneModelCall(
    payload: map<string, Value>, m1: Model, m2: Model, system: string,
    env: Option<string>, defaultMemoryId: string, memory: MemoryClient)
    requires m1(WithSystemMessage(system, Seed(ReadPayload(payload))))
      == m2(WithSystemMessage(system, Seed(ReadPayload(payload))))
    ensures HandleSingleNode(payload, m1, system, env, defaultMemoryId, memory)
      == HandleSingleNode(payload, m2, system, env, defaultMemoryId, memory)
  {
  }

  /** The model sees the system message followed by the single human message. */
  lemma SingleNodeModelInput(payload: map<string, Value>, system: string)
    ensures WithSystemMessage(system, Seed(ReadPayload(payload)))
      == [SystemMessage(system), HumanMessage(ReadPayload(payload).prompt)]
  {
  }
}

=== FILE: chat_history.dfy ===
/** The chat-history tool (core/tools/libs/chat_history_summarize_tool.py):
    three context guards, a call to the memory store for the last turns, and
    a rendering of those turns as JSON, as a full transcript or as a summary.
    The memory store and `json.dumps` are parameters; the per-request context
    is an explicit map. */
module ChatHistory {
  import opened PyStrings
  import opened PyValues
  import opened ToolInterface
  import ToolFactory

  // ---------------------------------------------------------------------
  // Turns as the memory store returns them
  // ---------------------------------------------------------------------

  /** A message's `content`: a dict, of which only the `text` entry is read
      (absent gives ""), or any other object, known by its `str()`. A message
      without content behaves as `DictContent(None)`, like the `{}` default. */
  datatype Content = DictContent(text: Option<string>) | OtherContent(shown: string)

  /** One stored message; `timestamp` is the `str()` of its timestamp entry. */
  datatype Message = Message(role: Option<string>, content: Content, timestamp: Option<string>)

  type Turn = seq<Message>

  function MessageText(m: Message): string {
    match m.content
    case DictContent(t) => t.GetOr("")
    case OtherContent(shown) => shown
  }

  // ---------------------------------------------------------------------
  // Summary rendering (_format_summary)
  // ---------------------------------------------------------------------

  const SnippetLimit := 100

  /** A message text as the summary shows it: cut to its first 100
      characters plus "..." when longer than 100. */
  function Truncate(text: string): (r: string)
    ensures |text| <= SnippetLimit ==> r == text
    ensures |text| > SnippetLimit ==> |r| == SnippetLimit + 3 && r[..SnippetLimit] == text[..SnippetLimit] && r[SnippetLimit..] == "..."
  {
    if |text| > SnippetLimit then text[..SnippetLimit] + "..." else text
  }

  /** Truncating twice is truncating once: the 103-character result keeps
      the same first 100 characters and ends in the same "...". */
  lemma TruncateIdempotent(text: string)
    ensures Truncate(Truncate(text)) == Truncate(text)
    ensures |Truncate(text)| <= SnippetLimit + 3
  {
    if |text| > SnippetLimit {
      var t := Truncate(text);
      assert t[..SnippetLimit] == text[..SnippetLimit];
      assert Truncate(t) == t[..SnippetLimit] + "...";
      assert t == t[..SnippetLimit] + t[SnippetLimit..];
    }
  }

  /** The role the summary matches on: upper-cased, "" when absent. */
  function SummaryRole(m: Message): string {
    Upper(m.role.GetOr(""))
  }

  /** The messages of a turn whose upper-cased role is `role`, in order. */
  function OfRole(turn: Turn, role: string): (r: seq<Message>)
    ensures |r| <= |turn|
    ensures forall m :: m in r ==> m in turn && SummaryRole(m) == role
    ensures forall m :: m in turn && SummaryRole(m) == role ==> m in r
  {
    if |turn| == 0 then []
    else (if SummaryRole(turn[0]) == role then [turn[0]] else []) + OfRole(turn[1..], role)
  }

  function Snippets(messages: seq<Message>): (r: seq<string>)
    ensures |r| == |messages|
    ensures forall k :: 0 <= k < |messages| ==> r[k] == Truncate(MessageText(messages[k]))
  {
    seq(|messages|, k requires 0 <= k < |messages| => Truncate(MessageText(messages[k])))
  }

  /** The separator between the user and the assistant part, verbatim from
      the source file: the three characters U+00E2 U+2020 U+2019 (the UTF-8
      bytes of an arrow read as Windows-1252) between two spaces. */
  const Arrow := " \U{00E2}\U{2020}\U{2019} "

  /** One summary line: "Turn i: ", then the user snippets, then the
      assistant snippets, the arrow only when both are present. */
  function TurnLine(i: nat, turn: Turn): string {
    var users := Snippets(OfRole(turn, "USER"));
    var assistants := Snippets(OfRole(turn, "ASSISTANT"));
    "Turn " + NatToString(i) + ": "
    + (if |users| > 0 then "User: " + Join(" | ", users) else "")
    + (if |assistants| > 0
       then (if |users| > 0 then Arrow else "") + "Assistant: " + Join(" | ", assistants)
       else "")
  }

  /** A turn line depends only on the user messages and on the assistant
      messages, each in their own order: how the two roles interleave, and
      any message of another role, make no difference. */
  lemma TurnLineDependsOnlyOnRoles(i: nat, t1: Turn, t2: Turn)
    requires OfRole(t1, "USER") == OfRole(t2, "USER")
    requires OfRole(t1, "ASSISTANT") == OfRole(t2, "ASSISTANT")
    ensures TurnLine(i, t1) == TurnLine(i, t2)
  {
  }

  /** A message whose role is neither USER nor ASSISTANT is dropped. */
  lemma {:induction false} OtherRolesDropped(i: nat, turn: Turn, m: Message)
    requires SummaryRole(m) != "USER" && SummaryRole(m) != "ASSISTANT"
    ensures TurnLine(i, turn + [m]) == TurnLine(i, turn)
  {
    OfRoleSnoc(turn, m, "USER");
    OfRoleSnoc(turn, m, "ASSISTANT");
    assert OfRole(turn + [m], "USER") == OfRole(turn, "USER") + [];
    assert OfRole(turn + [m], "ASSISTANT") == OfRole(turn, "ASSISTANT") + [];
    TurnLineDependsOnlyOnRoles(i, turn + [m], turn);
  }

  lemma {:induction false} OfRoleSnoc(turn: Turn, m: Message, role: string)
    ensures OfRole(turn + [m], role) == OfRole(turn, role) + (if SummaryRole(m) == role then [m] else [])
    decreases |turn|
  {
    if |turn| > 0 {
      assert (turn + [m])[1..] == turn[1..] + [m];
      OfRoleSnoc(turn[1..], m, role);
    }
  }

  function SummaryHeader(count: nat): string {
    "Chat History Summary (" + NatToString(count) + " turns):\n"
  }

  /** The lines for `turns`, numbered from `first` as `enumerate(turns, first)` does. */
  function SummaryLines(turns: seq<Turn>, first: nat): (lines: seq<string>)
    ensures |lines| == |turns|
    ensures forall k :: 0 <= k < |turns| ==> lines[k] == TurnLine(first + k, turns[k])
    decreases |turns|
  {
    if |turns| == 0 then [] else [TurnLine(first, turns[0])] + SummaryLines(turns[1..], first + 1)
  }

  const NoConversation := "No conversation history available."

  /** `_format_summary`: a header with the turn count, then one line per
      turn numbered from 1, joined by newlines. */
  function FormatSummary(turns: seq<Turn>): (r: string)
    ensures |turns| == 0 ==> r == NoConversation
    ensures |turns| > 0 ==> exists lines: seq<string> ::
      && |lines| == |turns|
      && (forall k :: 0 <= k < |turns| ==> lines[k] == TurnLine(k + 1, turns[k]))
      && r == Join("\n", [SummaryHeader(|turns|)] + lines)
  {
    if |turns| == 0 then NoConversation
    else Join("\n", [SummaryHeader(|turns|)] + SummaryLines(turns, 1))
  }

  // ---------------------------------------------------------------------
  // Full rendering (_format_full_history)
  // ---------------------------------------------------------------------

  /** The role the full view shows: upper-cased, "UNKNOWN" when absent. */
  function FullRole(m: Message): string {
    Upper(m.role.GetOr("UNKNOWN"))
  }

  /** The timestamp line appears unless the entry is absent or is "N/A". */
  predicate ShowsTime(m: Message) {
    m.timestamp.Some? && m.timestamp.value != "N/A"
  }

  function MessageLines(m: Message): (lines: seq<string>)
    ensures |lines| == (if ShowsTime(m) then 2 else 1)
    ensures lines[0] == FullRole(m) + ": " + MessageText(m)
    ensures ShowsTime(m) ==> lines[1] == "  [Time: " + m.timestamp.value + "]"
  {
    [FullRole(m) + ": " + MessageText(m)]
    + (if ShowsTime(m) then ["  [Time: " + m.timestamp.value + "]"] else [])
  }

  function TurnMessageLines(turn: Turn): seq<string>
    decreases |turn|
  {
    if |turn| == 0 then [] else MessageLines(turn[0]) + TurnMessageLines(turn[1..])
  }

  function FullParts(turns: seq<Turn>, first: nat): seq<string>
    decreases |turns|
  {
    if |turns| == 0 then []
    else ["\n--- Turn " + NatToString(first) + " ---"] + TurnMessageLines(turns[0]) + FullParts(turns[1..], first + 1)
  }

  function FullHeader(count: nat): string {
    "Complete Chat History (" + NatToString(count) + " turns):\n" + Repeat("=", 50)
  }

  /** `_format_full_history`: a header, then per turn a "--- Turn i ---"
      part followed by a "ROLE: text" part per message and a time part for
      each message that has a timestamp, joined by newlines. */
  function FormatFullHistory(turns: seq<Turn>): (r: string)
    ensures |turns| == 0 ==> r == NoConversation
    ensures |turns| > 0 ==> |r| >= |FullHeader(|turns|)| && r[..|FullHeader(|turns|)|] == FullHeader(|turns|)
    ensures |turns| > 0 ==> r == Join("\n", [FullHeader(|turns|)] + FullParts(turns, 1))
  {
    if |turns| == 0 then NoConversation
    else
      var parts := [FullHeader(|turns|)] + FullParts(turns, 1);
      JoinPrefix("\n", parts);
      Join("\n", parts)
  }

  /** Turns render independently: the parts of a history split anywhere are
      the parts of the front followed by those of the back, numbered on
      from where the front stopped. */
  lemma {:induction false} FullPartsAppend(front: seq<Turn>, back: seq<Turn>, first: nat)
    ensures FullParts(front + back, first) == FullParts(front, first) + FullParts(back, first + |front|)
    decreases |front|
  {
    if |front| > 0 {
      assert (front + back)[0] == front[0];
      assert (front + back)[1..] == front[1..] + back;
      FullPartsAppend(front[1..], back, first + 1);
    } else {
      assert front + back == back;
    }
  }

  /** A single turn renders as its marker followed by its messages' lines. */
  lemma SingleTurnParts(turn: Turn, i: nat)
    ensures FullParts([turn], i) == ["\n--- Turn " + NatToString(i) + " ---"] + TurnMessageLines(turn)
  {
    assert [turn][1..] == [];
  }

  /** Messages render independently, in order. */
  lemma {:induction false} TurnMessageLinesAppend(a: Turn, b: Turn)
    ensures TurnMessageLines(a + b) == TurnMessageLines(a) + TurnMessageLines(b)
    decreases |a|
  {
    if |a| > 0 {
      assert (a + b)[0] == a[0];
      assert (a + b)[1..] == a[1..] + b;
      TurnMessageLinesAppend(a[1..], b);
    } else {
      assert a + b == b;
    }
  }

  function TimedCount(turn: Turn): nat {
    if |turn| == 0 then 0 else (if ShowsTime(turn[0]) then 1 else 0) + TimedCount(turn[1..])
  }

  function TotalParts(turns: seq<Turn>): nat {
    if |turns| == 0 then 0 else 1 + |turns[0]| + TimedCount(turns[0]) + TotalParts(turns[1..])
  }

  /** The full view has one part per turn, one per message and one per
      shown timestamp, so no message is left out or duplicated. */
  lemma {:induction false} FullPartsCount(turns: seq<Turn>, first: nat)
    ensures |FullParts(turns, first)| == TotalParts(turns)
    decreases |turns|
  {
    if |turns| > 0 {
      TurnMessageLinesCount(turns[0]);
      FullPartsCount(turns[1..], first + 1);
    }
  }

  lemma {:induction false} TurnMessageLinesCount(turn: Turn)
    ensures |TurnMessageLines(turn)| == |turn| + TimedCount(turn)
    decreases |turn|
  {
    if |turn| > 0 {
      TurnMessageLinesCount(turn[1..]);
    }
  }

  /** The first part of a message's lines names its role, "UNKNOWN" when the
      message has none. */
  lemma UnknownRole(m: Message)
    requires m.role.None?
    ensures MessageLines(m)[0] == "UNKNOWN: " + MessageText(m)
  {
    assert Upper("UNKNOWN") == "UNKNOWN";
  }

  // ---------------------------------------------------------------------
  // run
  // ---------------------------------------------------------------------

  const MissingMemoryId := "Memory ID not available in context. Cannot retrieve chat history."
  const MissingActorId := "Actor ID (user ID) not available in context. Cannot retrieve chat history."
  const MissingSessionId := "Session ID not available in context. Cannot retrieve chat history."
  const NoHistory := "No chat history found for the current session."
  const FailurePrefix := "Failed to retrieve chat history: "

  /** The arguments of `get_last_k_turns`. */
  datatype RetrievalRequest = RetrievalRequest(
    memoryId: Value, actorId: Value, sessionId: Value,
    k: Value, branchName: Value, includeBranches: bool, maxResults: Value)

  /** The memory client's `get_last_k_turns`, and `json.dumps(turns, indent=2, default=str)`. */
  datatype MemoryBackend = MemoryBackend(
    getLastKTurns: RetrievalRequest -> Outcome<seq<Turn>>,
    dumpTurns: seq<Turn> -> string)

  function ContextValue(context: map<string, Value>, key: string): Value {
    Get(context, key, VNone)
  }

  /** `actor_id or user_id`: the actor id when truthy, else the user id as found. */
  function ActorId(context: map<string, Value>): (v: Value)
    ensures Truthy(ContextValue(context, "actor_id")) ==> v == ContextValue(context, "actor_id")
    ensures !Truthy(ContextValue(context, "actor_id")) ==> v == ContextValue(context, "user_id")
  {
    var a := ContextValue(context, "actor_id");
    if Truthy(a) then a else ContextValue(context, "user_id")
  }

  /** `kwargs.get("format_type", "summary").lower()`: raises for a non-string. */
  function FormatType(kwargs: map<string, Value>): (r: Outcome<string>)
    ensures "format_type" !in kwargs ==> r == Returned("summary")
    ensures "format_type" in kwargs && kwargs["format_type"].VStr? ==> r == Returned(Lower(kwargs["format_type"].s))
    ensures "format_type" in kwargs && !kwargs["format_type"].VStr? ==> r.Raised? && r.error.kind == "AttributeError"
  {
    var f := Get(kwargs, "format_type", VStr("summary"));
    LowerKeepsLowercase("summary");
    if f.VStr? then Returned(Lower(f.s)) else Raised(NoAttribute(f, "lower"))
  }

  /** Dispatch on the lower-cased format type: "json", "full", and the
      summary for every other value. */
  function Render(turns: seq<Turn>, formatType: string, backend: MemoryBackend): string {
    if formatType == "json" then backend.dumpTurns(turns)
    else if formatType == "full" then FormatFullHistory(turns)
    else FormatSummary(turns)
  }

  function Request(context: map<string, Value>, kwargs: map<string, Value>, maxResults: Value): RetrievalRequest {
    RetrievalRequest(
      ContextValue(context, "memory_id"), ActorId(context), ContextValue(context, "session_id"),
      Get(kwargs, "max_turns", VInt(10)), Get(kwargs, "include_branch", VNone), false, maxResults)
  }

  /** The guarded `try` block: any exception becomes the failure message. */
  function Retrieve(context: map<string, Value>, kwargs: map<string, Value>, formatType: string, backend: MemoryBackend): string {
    match TimesTen(Get(kwargs, "max_turns", VInt(10)))
    case Raised(e) => FailurePrefix + e.message
    case Returned(maxResults) =>
      match backend.getLastKTurns(Request(context, kwargs, maxResults))
      case Raised(e) => FailurePrefix + e.message
      case Returned(turns) =>
        if |turns| == 0 then NoHistory else Render(turns, formatType, backend)
  }

  predicate MemoryGuardFails(context: map<string, Value>) {
    !Truthy(ContextValue(context, "memory_id"))
  }

  predicate ActorGuardFails(context: map<string, Value>) {
    !MemoryGuardFails(context) && !Truthy(ActorId(context))
  }

  predicate SessionGuardFails(context: map<string, Value>) {
    !MemoryGuardFails(context) && !ActorGuardFails(context) && !Truthy(ContextValue(context, "session_id"))
  }

  predicate GuardsPass(context: map<string, Value>) {
    !MemoryGuardFails(context) && !ActorGuardFails(context) && !SessionGuardFails(context)
  }

  /** `run`: reads the format type first (a non-string one raises before
      anything else), then checks memory id, actor id and session id in that
      order, each with its own message, and only then retrieves. */
  function Run(context: map<string, Value>, kwargs: map<string, Value>, backend: MemoryBackend): (r: Outcome<string>)
    ensures r.Raised? <==> FormatType(kwargs).Raised?
    ensures r.Raised? ==> r == Raised(FormatType(kwargs).error)
    ensures r.Returned? && MemoryGuardFails(context) ==> r.value == MissingMemoryId
    ensures r.Returned? && ActorGuardFails(context) ==> r.value == MissingActorId
    ensures r.Returned? && SessionGuardFails(context) ==> r.value == MissingSessionId
  {
    match FormatType(kwargs)
    case Raised(e) => Raised(e)
    case Returned(formatType) =>
      if MemoryGuardFails(context) then Returned(MissingMemoryId)
      else if !Truthy(ActorId(context)) then Returned(MissingActorId)
      else if !Truthy(ContextValue(context, "session_id")) then Returned(MissingSessionId)
      else Returned(Retrieve(context, kwargs, formatType, backend))
  }

  /** When a guard fails no retrieval happens: the answer is the same
      whatever the memory store would have done. */
  lemma GuardedRunIgnoresBackend(context: map<string, Value>, kwargs: map<string, Value>, b1: MemoryBackend, b2: MemoryBackend)
    requires !GuardsPass(context)
    ensures Run(context, kwargs, b1) == Run(context, kwargs, b2)
  {
  }

  /** Past the guards, the store is asked for the last `max_turns` turns (10
      by default) of the context's memory, actor and session, with at most
      ten times as many results; what it returns decides the answer. */
  lemma RunRetrieves(context: map<string, Value>, kwargs: map<string, Value>, backend: MemoryBackend, turns: seq<Turn>)
    requires GuardsPass(context) && FormatType(kwargs).Returned?
    requires "max_turns" !in kwargs
    requires backend.getLastKTurns(Request(context, kwargs, VInt(100))) == Returned(turns)
    ensures Request(context, kwargs, VInt(100)).k == VInt(10)
    ensures Request(context, kwargs, VInt(100)).actorId == ActorId(context)
    ensures |turns| == 0 ==> Run(context, kwargs, backend) == Returned(NoHistory)
    ensures |turns| > 0 && FormatType(kwargs).value == "json" ==> Run(context, kwargs, backend) == Returned(backend.dumpTurns(turns))
    ensures |turns| > 0 && FormatType(kwargs).value == "full" ==> Run(context, kwargs, backend) == Returned(FormatFullHistory(turns))
    ensures |turns| > 0 && FormatType(kwargs).value != "json" && FormatType(kwargs).value != "full" ==>
      Run(context, kwargs, backend) == Returned(FormatSummary(turns))
  {
  }

  /** A failing store never makes `run` raise: its error comes back as text. */
  lemma RunReportsFailure(context: map<string, Value>, kwargs: map<string, Value>, backend: MemoryBackend, e: Exception)
    requires GuardsPass(context) && FormatType(kwargs).Returned?
    requires TimesTen(Get(kwargs, "max_turns", VInt(10))).Returned?
    requires backend.getLastKTurns(Request(context, kwargs, TimesTen(Get(kwargs, "max_turns", VInt(10))).value)) == Raised(e)
    ensures Run(context, kwargs, backend) == Returned(FailurePrefix + e.message)
  {
  }

  /** The format type is read case-insensitively: a string selects the JSON
      dump exactly when its lower-case form is "json" (so "JSON", "Json" and
      "json" all do), and upper-casing the argument selects the same
      rendering as the argument itself. */
  lemma FormatTypeIgnoresCase(kwargs: map<string, Value>, s: string)
    requires "format_type" in kwargs && kwargs["format_type"] == VStr(s)
    ensures FormatType(kwargs) == Returned("json") <==> Lower(s) == "json"
    ensures FormatType(kwargs["format_type" := VStr(Upper(s))]) == FormatType(kwargs)
  {
    LowerIgnoresCase(s);
  }

  /** The three spellings named above lower-case to "json". */
  lemma JsonSpellings()
    ensures Lower("JSON") == "json" && Lower("Json") == "json" && Lower("json") == "json"
  {
    var a, b := Lower("JSON"), Lower("Json");
    assert a[0] == 'j' && a[1] == 's' && a[2] == 'o' && a[3] == 'n';
    assert b[0] == 'j' && b[1] == 's' && b[2] == 'o' && b[3] == 'n';
    LowerKeepsLowercase("json");
  }

  /** The attributes an instance has as the file stands: the class's own
      (`memory_client`, `run`, the two formatters, `name`, `description`),
      `Tool`'s `as_langchain_tool`, and `logger`, set by `__init__`. There is
      no `get_context` among them. */
  const InstanceAttributes := {"memory_client", "run", "_format_summary", "_format_full_history",
                               "name", "description", "as_langchain_tool", "logger"}

  /** `run` as written: its first statement looks up `self.get_context`,
      which raises AttributeError on an instance without that attribute;
      an instance that had it would behave as `Run` over the context it
      supplies. */
  function RunAsWritten(attributes: set<string>, context: map<string, Value>, kwargs: map<string, Value>, backend: MemoryBackend): (r: Outcome<string>)
    ensures "get_context" !in attributes ==> r.Raised? && r.error.kind == "AttributeError"
    ensures "get_context" in attributes ==> r == Run(context, kwargs, backend)
  {
    if "get_context" !in attributes
    then Raised(Exception("AttributeError", "'" + ToolName + "' object has no attribute 'get_context'"))
    else Run(context, kwargs, backend)
  }

  /** As written, every call fails, whatever the context, the arguments and
      the memory store: not even the guard messages can be returned. */
  lemma RunAsWrittenAlwaysRaises(context: map<string, Value>, kwargs: map<string, Value>, backend: MemoryBackend)
    ensures RunAsWritten(InstanceAttributes, context, kwargs, backend).Raised?
    ensures RunAsWritten(InstanceAttributes, context, kwargs, backend).error.kind == "AttributeError"
  {
  }

  // ---------------------------------------------------------------------
  // The tool and its registered class
  // ---------------------------------------------------------------------

  const ToolName := "Chat_history_summarize_tool"
  const ToolDescription := "Retrieves and summarizes chat history from the current conversation session. Automatically uses the current user and session context. Use this when users ask about previous conversations or want to review what was discussed earlier. Supports different output formats: 'summary' (default), 'full', or 'json'."

  /** The tool instance over an explicit context; positional arguments are ignored. */
  function ChatHistoryTool(context: map<string, Value>, backend: MemoryBackend): Tool {
    Tool(ToolName, Some(ToolDescription), (args: CallArgs) =>
      match Run(context, args.keyword, backend)
      case Returned(text) => Returned(VStr(text))
      case Raised(e) => Raised(e))
  }

  /** The class as the registry stores it: key "Chat_history_summarize_tool". */
  function ChatHistoryClass(context: map<string, Value>, backend: MemoryBackend): ToolFactory.ToolClass {
    ToolFactory.ZeroArgumentClass("Chat_history_summarize_tool", ChatHistoryTool(context, backend))
  }
}

=== FILE: communication_agent.dfy ===
/** The communication agent's entrypoint: a single-node chatbot graph (no tools),
    payload defaults, and the exchange saved to memory under the memory id
    from the environment, "conversation_memory-y0ttEoDG5r" when unset. The persona text is
    the `system` parameter. */
module CommunicationAgent {
  import opened PyValues
  import opened Graph
  import opened AgentRequests

  const DefaultMemoryId := "conversation_memory-y0ttEoDG5r"

  function Handle(payload: map<string, Value>, model: Model, system: string, env: Option<string>, memory: MemoryClient): (r: Completion<Reply>)
    ensures !r.OutOfFuel?
    ensures r.Crashed? <==> model([SystemMessage(system), HumanMessage(ReadPayload(payload).prompt)]).Raised?
    ensures r.Completed? ==>
      r.value.answer == model([SystemMessage(system), HumanMessage(ReadPayload(payload).prompt)]).value.content
    ensures r.Completed? && env.None? ==> r.value.saved.memoryId == "conversation_memory-y0ttEoDG5r"
    ensures r.Completed? ==> r.value.saved.messages == [(ReadPayload(payload).prompt, "USER"), (VStr(r.value.answer), "ASSISTANT")]
    ensures r.Completed? ==> r.value.saveOutcome == memory(r.value.saved)
  {
    SingleNodeModelInput(payload, system);
    HandleSingleNode(payload, model, system, env, DefaultMemoryId, memory)
  }

  /** A bare payload with a prompt is saved under the default user and
      session ids, and the memory outcome, failure included, leaves the
      returned answer unchanged. */
  lemma BarePayloadDefaults(prompt: Value, model: Model, system: string, m1: MemoryClient, m2: MemoryClient)
    requires model([SystemMessage(system), HumanMessage(prompt)]).Returned?
    ensures var r := Handle(map["prompt" := prompt], model, system, None, m1);
      && r.Completed?
      && r.value.saved == MemoryEvent("conversation_memory-y0ttEoDG5r", VStr("default_user"), VStr("default_session"),
           [(prompt, "USER"), (VStr(model([SystemMessage(system), HumanMessage(prompt)]).value.content), "ASSISTANT")])
      && r.value.answer == Handle(map["prompt" := prompt], model, system, None, m2).value.answer
  {
    SingleNodeAnswerIgnoresMemory(map["prompt" := prompt], model, system, None, DefaultMemoryId, m1, m2);
  }
}

=== FILE: graph.dfy ===
/** The conversation graphs the agents build with langgraph: a "chatbot"
    node that prepends the persona's system message when the history does
    not start with one and calls the model, and, in the tool-using agents, a
    "tools" node reached while the model keeps requesting tools. The model
    and langgraph's ToolNode are parameters. The wiring has no stop condition
    while tools are requested; langgraph's recursion limit is not modelled,
    so the loop is run with explicit fuel and may report `OutOfFuel`. */
module Graph {
  import opened PyValues

  datatype ToolCall = ToolCall(id: string, name: string, args: map<string, Value>)

  /** An AIMessage: its text and the tool calls it requests. */
  datatype AiReply = AiReply(content: string, toolCalls: seq<ToolCall>)

  datatype ChatMessage =
    | SystemMessage(text: string)
    | HumanMessage(content: Value)
    | AiMessage(reply: AiReply)
    | ToolMessage(toolCallId: string, output: string)

  /** The chat model's `invoke` (already bound to its tools, if any). */
  type Model = seq<ChatMessage> -> Outcome<AiReply>

  /** langgraph's ToolNode: runs the calls requested by a reply and yields
      the resulting messages. */
  type ToolRunner = AiReply -> Outcome<seq<ChatMessage>>

  predicate StartsWithSystem(messages: seq<ChatMessage>) {
    |messages| > 0 && messages[0].SystemMessage?
  }

  predicate NoSystemMessage(messages: seq<ChatMessage>) {
    forall i :: 0 <= i < |messages| ==> !messages[i].SystemMessage?
  }

  function SystemCount(messages: seq<ChatMessage>): nat {
    if |messages| == 0 then 0
    else (if messages[0].SystemMessage? then 1 else 0) + SystemCount(messages[1..])
  }

  /** The messages the chatbot node hands to the model: the history, with
      the system message in front when the history is empty or does not
      already start with a system message. */
  function WithSystemMessage(system: string, messages: seq<ChatMessage>): (r: seq<ChatMessage>)
    ensures StartsWithSystem(r)
    ensures |messages| <= |r| <= |messages| + 1
  {
    if !StartsWithSystem(messages) then [SystemMessage(system)] + messages else messages
  }

  /** The injection never alters the history: it reaches the model whole,
      as the tail of what the model sees, and it is passed untouched exactly
      when it already starts with a system message; otherwise only the
      persona's message is added, in front. */
  lemma InjectionKeepsHistory(system: string, messages: seq<ChatMessage>)
    ensures var r := WithSystemMessage(system, messages);
      r[|r| - |messages|..] == messages
    ensures StartsWithSystem(messages) <==> WithSystemMessage(system, messages) == messages
    ensures !StartsWithSystem(messages) ==>
      WithSystemMessage(system, messages)[0] == SystemMessage(system)
  {
  }

  /** Injecting twice is injecting once: the loop never stacks a second
      system message on a history that already got one. */
  lemma InjectionIdempotent(system: string, messages: seq<ChatMessage>)
    ensures WithSystemMessage(system, WithSystemMessage(system, messages)) == WithSystemMessage(system, messages)
  {
  }

  /** A history without system messages reaches the model with exactly one,
      in front. */
  lemma {:induction false} ExactlyOneSystemMessage(system: string, messages: seq<ChatMessage>)
    requires NoSystemMessage(messages)
    ensures SystemCount(WithSystemMessage(system, messages)) == 1
  {
    NoSystemMeansZero(messages);
    var r := WithSystemMessage(system, messages);
    assert r[1..] == messages;
  }

  lemma {:induction false} NoSystemMeansZero(messages: seq<ChatMessage>)
    requires NoSystemMessage(messages)
    ensures SystemCount(messages) == 0
    decreases |messages|
  {
    if |messages| > 0 {
      NoSystemMeansZero(messages[1..]);
    }
  }

  /** The chatbot node: calls the model on the injected history; its state
      update is the model's reply alone, so the injected system message is
      never written back into the state. */
  function ChatbotNode(model: Model, system: string, state: seq<ChatMessage>): (r: Outcome<seq<ChatMessage>>)
    ensures model(WithSystemMessage(system, state)).Raised? ==> r == Raised(model(WithSystemMessage(system, state)).error)
    ensures model(WithSystemMessage(system, state)).Returned? ==>
      r == Returned([AiMessage(model(WithSystemMessage(system, state)).value)])
  {
    match model(WithSystemMessage(system, state))
    case Raised(e) => Raised(e)
    case Returned(reply) => Returned([AiMessage(reply)])
  }

  datatype Next = ToTools | ToEnd

  /** `tools_condition`: to the tools node when the last message is an AI
      message requesting at least one tool call, to the end otherwise. */
  function ToolsCondition(state: seq<ChatMessage>): (n: Next)
    ensures n == ToTools <==> |state| > 0 && state[|state| - 1].AiMessage? && |state[|state| - 1].reply.toolCalls| > 0
  {
    if |state| > 0 && state[|state| - 1].AiMessage? && |state[|state| - 1].reply.toolCalls| > 0
    then ToTools else ToEnd
  }

  /** How a graph run ends: with a state, with an exception that escaped
      the graph, or (fuel-bounded model only) undecided. */
  datatype Completion<+T> = Completed(value: T) | Crashed(error: Exception) | OutOfFuel

  /** A finished run: the final state and the reply that ended it. */
  datatype Finish = Finish(state: seq<ChatMessage>, final: AiReply)

  /** How one pass through the graph ends: the run stops here (with its
      outcome), or the tools ran and the chatbot is entered again on the
      extended state. */
  datatype Step = Stop(outcome: Completion<Finish>) | Continue(next: seq<ChatMessage>)

  /** One pass: the chatbot node, then `tools_condition`, then, when tools
      were requested, the tools node. */
  function ChatStep(model: Model, tools: ToolRunner, system: string, state: seq<ChatMessage>): (s: Step)
    ensures s.Stop? ==> !s.outcome.OutOfFuel?
    ensures s.Stop? && s.outcome.Crashed? ==>
      model(WithSystemMessage(system, state)).Raised? || tools(model(WithSystemMessage(system, state)).value).Raised?
    ensures s.Stop? && s.outcome.Completed? ==>
      && model(WithSystemMessage(system, state)) == Returned(s.outcome.value.final)
      && s.outcome.value.state == state + [AiMessage(s.outcome.value.final)]
      && s.outcome.value.final.toolCalls == []
    ensures s.Continue? ==>
      && model(WithSystemMessage(system, state)).Returned?
      && |model(WithSystemMessage(system, state)).value.toolCalls| > 0
      && |s.next| > |state| && s.next[..|state|] == state
      && s.next[|state|] == AiMessage(model(WithSystemMessage(system, state)).value)
  {
    match model(WithSystemMessage(system, state))
    case Raised(e) => Stop(Crashed(e))
    case Returned(reply) =>
      var next := state + [AiMessage(reply)];
      if ToolsCondition(next) == ToEnd then Stop(Completed(Finish(next, reply)))
      else
        match tools(reply)
        case Raised(e) => Stop(Crashed(e))
        case Returned(results) =>
          assert (next + results)[..|state|] == state;
          Continue(next + results)
  }

  /** The chatbot/tools graph: entry at the chatbot; the chatbot goes to the
      tools while the reply requests tools and ends otherwise; the tools
      always return to the chatbot. `fuel` bounds the number of chatbot
      steps; running out is reported, not treated as termination. */
  function RunToolLoop(model: Model, tools: ToolRunner, system: string, state: seq<ChatMessage>, fuel: nat): Completion<Finish>
    decreases fuel
  {
    if fuel == 0 then OutOfFuel
    else
      match ChatStep(model, tools, system, state)
      case Stop(outcome) => outcome
      case Continue(next) => RunToolLoop(model, tools, system, next, fuel - 1)
  }

  /** A finished run only ever appended to the state it started from, and
      ended on an AI message that requests no tools: the reply it reports. */
  lemma {:induction false} RunToolLoopShape(model: Model, tools: ToolRunner, system: string, state: seq<ChatMessage>, fuel: nat)
    ensures var r := RunToolLoop(model, tools, system, state, fuel);
      r.Completed? ==> |r.value.state| > |state| && r.value.state[..|state|] == state
    ensures var r := RunToolLoop(model, tools, system, state, fuel);
      r.Completed? ==> r.value.state[|r.value.state| - 1] == AiMessage(r.value.final)
    ensures var r := RunToolLoop(model, tools, system, state, fuel);
      r.Completed? ==> r.value.final.toolCalls == []
    decreases fuel
  {
    if fuel > 0 {
      match ChatStep(model, tools, system, state)
      case Stop(outcome) =>
        if outcome.Completed? {
          assert outcome.value.state[..|state|] == state;
        }
      case Continue(next) =>
        RunToolLoopShape(model, tools, system, next, fuel - 1);
        var r := RunToolLoop(model, tools, system, next, fuel - 1);
        if r.Completed? {
          PrefixTransitive(r.value.state, next, state);
        }
    }
  }

  lemma PrefixTransitive(a: seq<ChatMessage>, b: seq<ChatMessage>, c: seq<ChatMessage>)
    requires |a| >= |b| && a[..|b|] == b
    requires |b| >= |c| && b[..|c|] == c
    ensures a[..|c|] == c
  {
    assert a[..|c|] == a[..|b|][..|c|];
  }

  /** Fuel only decides whether the run is seen to end: once some fuel
      suffices, more fuel gives the same outcome. */
  lemma {:induction false} FuelMonotone(model: Model, tools: ToolRunner, system: string, state: seq<ChatMessage>, fuel: nat, extra: nat)
    requires RunToolLoop(model, tools, system, state, fuel) != OutOfFuel
    ensures RunToolLoop(model, tools, system, state, fuel + extra) == RunToolLoop(model, tools, system, state, fuel)
    decreases fuel
  {
    match ChatStep(model, tools, system, state)
    case Stop(_) =>
    case Continue(next) =>
      FuelMonotone(model, tools, system, next, fuel - 1, extra);
  }

  /** A model that always requests a tool, with tools that always succeed,
      keeps the loop going for any amount of fuel: the graph's own wiring
      has no stop condition while tools are requested. */
  lemma {:induction false} AlwaysRequestingToolsNeverEnds(tools: ToolRunner, system: string, state: seq<ChatMessage>, fuel: nat, call: ToolCall)
    requires forall reply :: tools(reply).Returned?
    ensures RunToolLoop(_ => Returned(AiReply("", [call])), tools, system, state, fuel) == OutOfFuel
    decreases fuel
  {
    if fuel > 0 {
      var next := state + [AiMessage(AiReply("", [call]))];
      assert ToolsCondition(next) == ToTools;
      AlwaysRequestingToolsNeverEnds(tools, system, next + tools(AiReply("", [call])).value, fuel - 1, call);
    }
  }

  /** The system message only ever goes to the model: a run that starts
      without system messages, with tools that add none, ends without any. */
  lemma {:induction false} SystemMessageNeverStored(model: Model, tools: ToolRunner, system: string, state: seq<ChatMessage>, fuel: nat)
    requires NoSystemMessage(state)
    requires forall reply :: tools(reply).Returned? ==> NoSystemMessage(tools(reply).value)
    ensures RunToolLoop(model, tools, system, state, fuel).Completed? ==>
      NoSystemMessage(RunToolLoop(model, tools, system, state, fuel).value.state)
    decreases fuel
  {
    if fuel > 0 {
      match model(WithSystemMessage(system, state))
      case Raised(_) =>
      case Returned(reply) =>
        var next := state + [AiMessage(reply)];
        if ToolsCondition(next) == ToTools {
          match tools(reply)
          case Raised(_) =>
          case Returned(results) =>
            assert ChatStep(model, tools, system, state) == Continue(next + results);
            SystemMessageNeverStored(model, tools, system, next + results, fuel - 1);
        }
    }
  }

  /** A one-step scripted run: a reply requesting a tool, one tool message,
      then a final reply. The state ends with exactly those three messages
      after the seed, the tool message between the two model turns. */
  lemma OneToolRoundTrip(model: Model, tools: ToolRunner, system: string, seed: seq<ChatMessage>, first: AiReply, result: ChatMessage, last: AiReply)
    requires NoSystemMessage(seed) && |first.toolCalls| > 0 && last.toolCalls == []
    requires model(WithSystemMessage(system, seed)) == Returned(first)
    requires tools(first) == Returned([result])
    requires model(WithSystemMessage(system, seed + [AiMessage(first), result])) == Returned(last)
    ensures RunToolLoop(model, tools, system, seed, 2) ==
      Completed(Finish(seed + [AiMessage(first), result, AiMessage(last)], last))
  {
    var next := seed + [AiMessage(first)];
    assert ToolsCondition(next) == ToTools;
    assert next + [result] == seed + [AiMessage(first), result];
    assert ChatStep(model, tools, system, seed) == Continue(seed + [AiMessage(first), result]);
    assert seed + [AiMessage(first), result] + [AiMessage(last)] == seed + [AiMessage(first), result, AiMessage(last)];
  }

  /** The single-node graph of the advice and communication agents: entry
      at the chatbot, no edges, so exactly one model call per request. */
  function RunSingleNode(model: Model, system: string, state: seq<ChatMessage>): (r: Completion<Finish>)
    ensures !r.OutOfFuel?
    ensures r.Crashed? <==> model(WithSystemMessage(system, state)).Raised?
    ensures r.Completed? ==> r.value.final == model(WithSystemMessage(system, state)).value
    ensures r.Completed? ==> r.value.state == state + [AiMessage(r.value.final)]
  {
    match ChatbotNode(model, system, state)
    case Raised(e) => Crashed(e)
    case Returned(update) => Completed(Finish(state + update, model(WithSystemMessage(system, state)).value))
  }

  /** The single-node graph consults the model at one input only: two
      models that agree there give the same run. */
  lemma SingleNodeCallsModelOnce(m1: Model, m2: Model, system: string, state: seq<ChatMessage>)
    requires m1(WithSystemMessage(system, state)) == m2(WithSystemMessage(system, state))
    ensures RunSingleNode(m1, system, state) == RunSingleNode(m2, system, state)
  {
  }
}

=== FILE: json.dfy ===
/** JSON documents as `json.loads` produces them and `json.dumps` consumes
    them. Parsing and serialising are external: the modules that need them
    take them as function parameters (see `Codec`). Object members keep
    their insertion order, as Python dicts do. */
module Json {
  import opened PyValues

  datatype Json =
    | JNull
    | JBool(b: bool)
    | JNumber(n: int)
    | JString(s: string)
    | JArray(items: seq<Json>)
    | JObject(members: seq<(string, Json)>)

  /** `json.loads` (raising on malformed text) and `json.dumps`. */
  datatype Codec = Codec(loads: string -> Outcome<Json>, dumps: Json -> string)

  /** JSON validity of a text, as decided by the parser. */
  predicate IsJson(codec: Codec, text: string) {
    codec.loads(text).Returned?
  }

  /** The value of the first member named `key`, if any. */
  function Member(j: Json, key: string): (r: Option<Json>)
    ensures r.Some? ==> j.JObject? && exists i :: 0 <= i < |j.members| && j.members[i] == (key, r.value)
    ensures r.None? ==> !j.JObject? || forall i :: 0 <= i < |j.members| ==> j.members[i].0 != key
  {
    if !j.JObject? then None else Lookup(j.members, key)
  }

  function Lookup(members: seq<(string, Json)>, key: string): (r: Option<Json>)
    ensures r.Some? ==> exists i :: 0 <= i < |members| && members[i] == (key, r.value)
    ensures r.None? ==> forall i :: 0 <= i < |members| ==> members[i].0 != key
  {
    if |members| == 0 then None
    else if members[0].0 == key then Some(members[0].1)
    else
      var r := Lookup(members[1..], key);
      assert forall i :: 1 <= i < |members| ==> members[i] == members[1..][i - 1];
      r
  }
}

=== FILE: logger_config.dfy ===
/** The logging configuration (core/logger/logger_config.py): the
    `dictConfig` dictionary `create_logging_config` builds, the environment
    readers for level and format, the context a contextual logger carries,
    how its adapter merges that context into a call's `extra`, and the text
    the coloured console formatter assembles. Timestamps and exception
    tracebacks arrive already formatted. */
module LoggerConfig {
  import opened PyStrings
  import opened PyValues

  // ---------------------------------------------------------------------
  // Environment
  // ---------------------------------------------------------------------

  /** `os.getenv("LOG_LEVEL", "INFO").upper()`. */
  function GetLogLevel(env: Option<string>): (level: string)
    ensures NoLowerAscii(level)
    ensures env.None? ==> level == "INFO"
    ensures env.Some? ==> |level| == |env.value| && level == Upper(env.value)
  {
    UpperNormalises(env.GetOr("INFO"));
    if env.None? then
      assert NoLowerAscii("INFO") by {
        assert "INFO"[0] == 'I' && "INFO"[1] == 'N' && "INFO"[2] == 'F' && "INFO"[3] == 'O';
      }
      UpperKeepsUppercase("INFO");
      Upper("INFO")
    else Upper(env.value)
  }

  /** `os.getenv("LOG_FORMAT", "console").lower()`. */
  function GetLogFormat(env: Option<string>): (format: string)
    ensures NoUpperAscii(format)
    ensures env.None? ==> format == "console"
    ensures env.Some? ==> |format| == |env.value| && format == Lower(env.value)
  {
    LowerNormalises(env.GetOr("console"));
    if env.None? then
      assert NoUpperAscii("console") by {
        assert "console"[0] == 'c' && "console"[1] == 'o' && "console"[2] == 'n' && "console"[3] == 's';
        assert "console"[4] == 'o' && "console"[5] == 'l' && "console"[6] == 'e';
      }
      LowerKeepsLowercase("console");
      Lower("console")
    else Lower(env.value)
  }

  /** Reading the environment is insensitive to case, and re-reading a value
      it produced gives that value back. */
  lemma EnvironmentReadsNormalise(s: string)
    ensures GetLogLevel(Some(Lower(s))) == GetLogLevel(Some(s))
    ensures GetLogLevel(Some(GetLogLevel(Some(s)))) == GetLogLevel(Some(s))
    ensures GetLogFormat(Some(GetLogFormat(Some(s)))) == GetLogFormat(Some(s))
  {
    UpperIgnoresCase(s);
    UpperNormalises(s);
    LowerNormalises(s);
  }

  // ---------------------------------------------------------------------
  // The configuration dictionary
  // ---------------------------------------------------------------------

  const MaxBytes := 10485760
  const BackupCount := 5

  datatype Formatter = JsonFormatter | ColoredConsoleFormatter

  datatype Handler =
    | ConsoleHandler(level: string, formatter: string)
    | RotatingFileHandler(level: string, formatter: string, filename: string, maxBytes: nat, backupCount: nat)

  datatype LoggerEntry = LoggerEntry(level: string, handlers: seq<string>, propagate: bool)

  /** The dictionary, with each nested dict as its entries in insertion order. */
  datatype Config = Config(
    version: nat,
    disableExistingLoggers: bool,
    formatters: seq<(string, Formatter)>,
    handlers: seq<(string, Handler)>,
    loggers: seq<(string, LoggerEntry)>,
    rootLevel: string,
    rootHandlers: seq<string>)

  /** The named loggers, in order, with the level each gets: "senpai"
      follows the `level` argument, the libraries are fixed. */
  function LoggerLevels(level: string): seq<(string, string)> {
    [("senpai", level),
     ("bedrock_agentcore", "WARNING"),
     ("boto3", "WARNING"),
     ("botocore", "WARNING"),
     ("langchain", "WARNING"),
     ("uvicorn", "INFO"),
     ("starlette", "INFO")]
  }

  /** The configuration without a log file. */
  function BaseConfig(level: string, formatType: string): Config {
    Config(
      1, false,
      [("json", JsonFormatter), ("console", ColoredConsoleFormatter)],
      [("console", ConsoleHandler(level, formatType))],
      seq(7, i requires 0 <= i < 7 => (LoggerLevels(level)[i].0, LoggerEntry(LoggerLevels(level)[i].1, ["console"], false))),
      level, ["console"])
  }

  /** The `if log_file:` branch: the rotating JSON file handler, and "file"
      appended to every named logger's handlers and to root's. */
  function AddFileHandler(c: Config, level: string, filename: string): (r: Config)
    ensures r.handlers == c.handlers + [("file", RotatingFileHandler(level, "json", filename, MaxBytes, BackupCount))]
    ensures r.rootHandlers == c.rootHandlers + ["file"]
    ensures r.version == c.version && r.disableExistingLoggers == c.disableExistingLoggers
    ensures r.formatters == c.formatters && r.rootLevel == c.rootLevel
    ensures |r.loggers| == |c.loggers|
    ensures forall i :: 0 <= i < |c.loggers| ==>
      r.loggers[i] == (c.loggers[i].0, c.loggers[i].1.(handlers := c.loggers[i].1.handlers + ["file"]))
  {
    c.(handlers := c.handlers + [("file", RotatingFileHandler(level, "json", filename, MaxBytes, BackupCount))],
       loggers := seq(|c.loggers|, i requires 0 <= i < |c.loggers| =>
         (c.loggers[i].0, c.loggers[i].1.(handlers := c.loggers[i].1.handlers + ["file"]))),
       rootHandlers := c.rootHandlers + ["file"])
  }

  /** `if log_file:` for an optional string: set and non-empty. */
  predicate FileEnabled(logFile: Option<string>) {
    logFile.Some? && logFile.value != ""
  }

  /** The handler names every logger and root end up with. */
  function HandlerNames(logFile: Option<string>): seq<string> {
    if FileEnabled(logFile) then ["console", "file"] else ["console"]
  }

  /** `create_logging_config(level, format_type, log_file)`. */
  function CreateLoggingConfig(level: string, formatType: string, logFile: Option<string>): (c: Config)
    ensures c.version == 1 && !c.disableExistingLoggers
    ensures c.formatters == [("json", JsonFormatter), ("console", ColoredConsoleFormatter)]
    ensures |c.handlers| > 0 && c.handlers[0] == ("console", ConsoleHandler(level, formatType))
    ensures FileEnabled(logFile) <==> |c.handlers| == 2
    ensures !FileEnabled(logFile) ==> |c.handlers| == 1
    ensures FileEnabled(logFile) ==>
      c.handlers[1] == ("file", RotatingFileHandler(level, "json", logFile.value, 10485760, 5))
    ensures |c.loggers| == 7
    ensures forall i :: 0 <= i < 7 ==> c.loggers[i].1.handlers == HandlerNames(logFile) && !c.loggers[i].1.propagate
    ensures c.rootLevel == level && c.rootHandlers == HandlerNames(logFile)
    ensures c.loggers[0] == ("senpai", LoggerEntry(level, HandlerNames(logFile), false))
    ensures forall i :: 1 <= i <= 4 ==> c.loggers[i].1.level == "WARNING"
    ensures forall i :: 5 <= i <= 6 ==> c.loggers[i].1.level == "INFO"
    ensures [c.loggers[1].0, c.loggers[2].0, c.loggers[3].0, c.loggers[4].0, c.loggers[5].0, c.loggers[6].0]
      == ["bedrock_agentcore", "boto3", "botocore", "langchain", "uvicorn", "starlette"]
  {
    var base := BaseConfig(level, formatType);
    if FileEnabled(logFile) then AddFileHandler(base, level, logFile.value) else base
  }

  /** A log file only adds: the file handler after the console handler and
      "file" after "console" everywhere; every level and every other entry
      is as without a file. An empty file name is no file. */
  lemma FileHandlerOnlyAdds(level: string, formatType: string, filename: string)
    ensures CreateLoggingConfig(level, formatType, Some("")) == CreateLoggingConfig(level, formatType, None)
    ensures filename != "" ==>
      var with := CreateLoggingConfig(level, formatType, Some(filename));
      var without := CreateLoggingConfig(level, formatType, None);
      && with.handlers == without.handlers + [("file", RotatingFileHandler(level, "json", filename, MaxBytes, BackupCount))]
      && with.rootHandlers == without.rootHandlers + ["file"]
      && with.rootLevel == without.rootLevel
      && |with.loggers| == |without.loggers|
      && (forall i :: 0 <= i < |with.loggers| ==>
            && with.loggers[i].0 == without.loggers[i].0
            && with.loggers[i].1.level == without.loggers[i].1.level
            && with.loggers[i].1.handlers == without.loggers[i].1.handlers + ["file"])
  {
  }

  /** The `level` argument reaches only the console handler, "senpai" and
      root: the library loggers come out the same for any two levels. */
  lemma LibraryLevelsFixed(l1: string, l2: string, formatType: string, logFile: Option<string>)
    ensures forall i :: 1 <= i < 7 ==>
      CreateLoggingConfig(l1, formatType, logFile).loggers[i] == CreateLoggingConfig(l2, formatType, logFile).loggers[i]
  {
  }

  // ---------------------------------------------------------------------
  // Contextual logger and adapter
  // ---------------------------------------------------------------------

  /** The parameters `get_contextual_logger` names; every other keyword
      lands in `**extra_context`. */
  const NamedParameters := {"name", "request_id", "user_id", "session_id"}

  /** A `LoggerAdapter`: the logger's name and the context it adds. */
  datatype Adapter = Adapter(loggerName: Value, context: map<string, Value>)

  function PutIfTruthy(context: map<string, Value>, key: string, v: Value): (r: map<string, Value>)
    ensures Truthy(v) ==> r == context[key := v]
    ensures !Truthy(v) ==> r == context
  {
    if Truthy(v) then context[key := v] else context
  }

  /** `get_contextual_logger(**keywords)`: the three ids enter the context
      only when truthy, then `context.update(extra_context)`. */
  function GetContextualLogger(keywords: map<string, Value>): (a: Adapter)
    ensures a.loggerName == (if "name" in keywords then keywords["name"] else VStr("senpai"))
    ensures forall k :: k in keywords && k !in NamedParameters ==> k in a.context && a.context[k] == keywords[k]
    ensures forall k :: k in a.context ==> k in keywords && k != "name"
    ensures forall id :: id in NamedParameters && id != "name" ==>
      (id in a.context <==> id in keywords && Truthy(keywords[id]))
  {
    var requestId := Get(keywords, "request_id", VNone);
    var userId := Get(keywords, "user_id", VNone);
    var sessionId := Get(keywords, "session_id", VNone);
    var extraContext := map k | k in keywords && k !in NamedParameters :: keywords[k];
    var context := PutIfTruthy(PutIfTruthy(PutIfTruthy(map[], "request_id", requestId), "user_id", userId), "session_id", sessionId);
    Adapter(Get(keywords, "name", VStr("senpai")), context + extraContext)
  }

  /** The ids can never be overridden: a keyword can only bind one
      parameter, so `extra_context` never holds an id, and an id in the
      context is always the truthy value it was given. */
  lemma IdsComeFromTheirParameters(keywords: map<string, Value>, id: string)
    requires id == "request_id" || id == "user_id" || id == "session_id"
    ensures id in GetContextualLogger(keywords).context ==>
      GetContextualLogger(keywords).context[id] == keywords[id] && Truthy(keywords[id])
  {
  }

  /** A logging call after `LoggerAdapter.process`: the message, the call's
      keyword arguments other than `extra`, and the merged `extra`. */
  datatype LogCall = LogCall(msg: string, otherKwargs: map<string, Value>, extra: map<string, Value>)

  /** `process`: `kwargs.get("extra", {})` updated with the adapter's
      context, so on a shared key the adapter wins; an `extra` that is not a
      dict has no `update` and raises. */
  function Process(adapter: Adapter, msg: string, kwargs: map<string, Value>): (r: Outcome<LogCall>)
    ensures "extra" in kwargs && !kwargs["extra"].VDict? ==> r.Raised? && r.error.kind == "AttributeError"
    ensures ("extra" !in kwargs || kwargs["extra"].VDict?) ==> r.Returned?
    ensures r.Returned? ==> r.value.msg == msg
    ensures r.Returned? ==> r.value.otherKwargs == kwargs - {"extra"}
    ensures r.Returned? ==> forall k :: k in adapter.context ==> k in r.value.extra && r.value.extra[k] == adapter.context[k]
    ensures r.Returned? ==> forall k :: k in r.value.extra && k !in adapter.context ==>
      "extra" in kwargs && k in kwargs["extra"].entries && r.value.extra[k] == kwargs["extra"].entries[k]
    ensures r.Returned? && "extra" in kwargs ==> forall k :: k in kwargs["extra"].entries ==> k in r.value.extra
  {
    var extra := Get(kwargs, "extra", VDict(map[], "{}"));
    if !extra.VDict? then Raised(NoAttribute(extra, "update"))
    else Returned(LogCall(msg, kwargs - {"extra"}, extra.entries + adapter.context))
  }

  /** Processing twice with the same adapter is processing once: the
      adapter's keys already carry its values. */
  lemma ProcessIdempotent(adapter: Adapter, msg: string, kwargs: map<string, Value>, shown: string)
    requires Process(adapter, msg, kwargs).Returned?
    ensures var once := Process(adapter, msg, kwargs).value;
      var again := Process(adapter, once.msg, once.otherKwargs["extra" := VDict(once.extra, shown)]);
      again.Returned? && again.value.extra == once.extra && again.value.msg == msg
  {
  }

  // ---------------------------------------------------------------------
  // Coloured console formatter
  // ---------------------------------------------------------------------

  const Reset := "\U{1B}[0m"

  const Colors := map[
    "DEBUG" := "\U{1B}[36m",
    "INFO" := "\U{1B}[32m",
    "WARNING" := "\U{1B}[33m",
    "ERROR" := "\U{1B}[31m",
    "CRITICAL" := "\U{1B}[35m"]

  /** `COLORS.get(levelname, RESET)`: reset exactly for the unknown levels. */
  function ColorFor(levelName: string): (c: string)
    ensures c == Reset <==> levelName !in Colors
    ensures levelName in Colors ==> c == Colors[levelName]
  {
    if levelName in Colors then Colors[levelName] else Reset
  }

  /** A log record as the formatter reads it; `attributes` are the ones set
      from `extra`, and the timestamp and traceback are already text. */
  datatype Record = Record(
    levelName: string,
    timestamp: string,
    loggerName: string,
    funcName: string,
    lineno: nat,
    message: string,
    attributes: map<string, Value>,
    exceptionText: Option<string>)

  function Entry(record: Record, attribute: string, tag: string): seq<string> {
    if attribute in record.attributes then [tag + "=" + Str(record.attributes[attribute])] else []
  }

  /** The context parts: one per attribute the record has (whatever its
      value, since the test is `hasattr`), request id first, session last. */
  function ContextParts(record: Record): (parts: seq<string>)
    ensures |parts| == |Entry(record, "request_id", "req_id")| + |Entry(record, "user_id", "user")| + |Entry(record, "session_id", "session")|
    ensures "request_id" in record.attributes ==> parts[0] == "req_id=" + Str(record.attributes["request_id"])
    ensures "session_id" in record.attributes ==> parts[|parts| - 1] == "session=" + Str(record.attributes["session_id"])
    ensures "user_id" in record.attributes ==>
      parts[if "request_id" in record.attributes then 1 else 0] == "user=" + Str(record.attributes["user_id"])
    ensures parts == [] <==> "request_id" !in record.attributes && "user_id" !in record.attributes && "session_id" !in record.attributes
  {
    Entry(record, "request_id", "req_id") + Entry(record, "user_id", "user") + Entry(record, "session_id", "session")
  }

  /** The four fixed parts: coloured level, timestamp, location, message. */
  function BaseParts(record: Record): seq<string> {
    [ColorFor(record.levelName) + "[" + record.levelName + "]" + Reset,
     record.timestamp,
     record.loggerName + ":" + record.funcName + ":" + NatToString(record.lineno),
     "- " + record.message]
  }

  /** `log_parts` after the optional `insert(-1, ...)`: the context segment,
      when there is one, goes just before the message part. */
  function ConsoleParts(record: Record): (parts: seq<string>)
    ensures ContextParts(record) == [] ==> parts == BaseParts(record)
    ensures ContextParts(record) != [] ==>
      && |parts| == 5
      && parts[..3] == BaseParts(record)[..3]
      && parts[3] == "[" + Join(", ", ContextParts(record)) + "]"
      && parts[4] == "- " + record.message
  {
    var base := BaseParts(record);
    var context := ContextParts(record);
    if context == [] then base
    else base[..3] + ["[" + Join(", ", context) + "]"] + [base[3]]
  }

  /** `ColoredConsoleFormatter.format`. */
  function ConsoleFormat(record: Record): (text: string)
    ensures record.exceptionText.Some? ==>
      var trace := record.exceptionText.value;
      && |text| > |trace|
      && text[|text| - |trace|..] == trace
      && text[|text| - |trace| - 1] == '\n'
  {
    var line := Join(" ", ConsoleParts(record));
    match record.exceptionText
    case None => line
    case Some(trace) => line + "\n" + trace
  }

  /** A traceback is appended on a line of its own after exactly the line
      the same record would give without one. */
  lemma ConsoleAppendsTrace(record: Record)
    requires record.exceptionText.Some?
    ensures ConsoleFormat(record) == ConsoleFormat(record.(exceptionText := None)) + "\n" + record.exceptionText.value
  {
    var plain := record.(exceptionText := None);
    assert ContextParts(plain) == ContextParts(record);
    assert BaseParts(plain) == BaseParts(record);
  }

  /** Without an exception the line ends with the message part, whatever
      the context; the line starts with the coloured level. */
  lemma ConsoleLineShape(record: Record)
    requires record.exceptionText.None?
    ensures var text := ConsoleFormat(record);
      var tail := "- " + record.message;
      var head := ColorFor(record.levelName) + "[" + record.levelName + "]" + Reset;
      && |text| >= |tail| && text[|text| - |tail|..] == tail
      && |text| >= |head| && text[..|head|] == head
  {
    var parts := ConsoleParts(record);
    var n := |parts|;
    assert parts == parts[..n - 1] + [parts[n - 1]];
    JoinSnoc(" ", parts[..n - 1], parts[n - 1]);
    JoinPrefix(" ", parts);
  }

  /** The context segment is omitted exactly when the record has none of
      the three attributes; other attributes never show. */
  lemma ContextSegmentOnlyForIds(record: Record, key: string, v: Value)
    requires key !in {"request_id", "user_id", "session_id"}
    ensures ConsoleFormat(record.(attributes := record.attributes[key := v])) == ConsoleFormat(record)
  {
    var other := record.(attributes := record.attributes[key := v]);
    assert Entry(other, "request_id", "req_id") == Entry(record, "request_id", "req_id");
    assert Entry(other, "user_id", "user") == Entry(record, "user_id", "user");
    assert Entry(other, "session_id", "session") == Entry(record, "session_id", "session");
  }
}

=== FILE: main_agent.dfy ===
/** The main agent's entrypoint: a chatbot/tools graph over its two tools,
    seeded with one human message from the payload's "prompt"; the answer is
    the content of the final message. No ids are read and nothing is saved. */
module MainAgent {
  import opened PyValues
  import opened Graph
  import opened AgentRequests

  function Handle(payload: map<string, Value>, model: Model, tools: ToolRunner, system: string, fuel: nat): (r: Completion<string>)
    ensures r.Completed? <==> RunToolLoop(model, tools, system, Seed(ReadPayload(payload)), fuel).Completed?
    ensures r.Completed? ==> r.value == RunToolLoop(model, tools, system, Seed(ReadPayload(payload)), fuel).value.final.content
    ensures r.Crashed? <==> RunToolLoop(model, tools, system, Seed(ReadPayload(payload)), fuel).Crashed?
    ensures r.Crashed? ==> r.error == RunToolLoop(model, tools, system, Seed(ReadPayload(payload)), fuel).error
  {
    RunToolLoopShape(model, tools, system, Seed(ReadPayload(payload)), fuel);
    match RunToolLoop(model, tools, system, Seed(ReadPayload(payload)), fuel)
    case Crashed(e) => Crashed(e)
    case OutOfFuel => OutOfFuel
    case Completed(finish) => Completed(finish.state[|finish.state| - 1].reply.content)
  }

  /** Only "prompt" is read: session and user ids, or any other key, change nothing. */
  lemma OnlyPromptRead(payload: map<string, Value>, key: string, v: Value, model: Model, tools: ToolRunner, system: string, fuel: nat)
    requires key != "prompt"
    ensures Handle(payload[key := v], model, tools, system, fuel) == Handle(payload, model, tools, system, fuel)
  {
    assert Seed(ReadPayload(payload[key := v])) == Seed(ReadPayload(payload));
  }

  /** A reply without tool calls is returned as it is, after one model call
      on the system message and the prompt. */
  lemma DirectAnswer(prompt: Value, model: Model, tools: ToolRunner, system: string, fuel: nat, reply: AiReply)
    requires fuel > 0 && reply.toolCalls == []
    requires model([SystemMessage(system), HumanMessage(prompt)]) == Returned(reply)
    ensures Handle(map["prompt" := prompt], model, tools, system, fuel) == Completed(reply.content)
  {
    assert WithSystemMessage(system, Seed(ReadPayload(map["prompt" := prompt]))) == [SystemMessage(system), HumanMessage(prompt)];
  }

  /** A ToolNode that raises is not caught: its exception is the request's outcome. */
  lemma ToolFailureEscapes(prompt: Value, model: Model, tools: ToolRunner, system: string, fuel: nat, reply: AiReply, e: Exception)
    requires fuel > 0 && |reply.toolCalls| > 0
    requires model([SystemMessage(system), HumanMessage(prompt)]) == Returned(reply)
    requires tools(reply) == Raised(e)
    ensures Handle(map["prompt" := prompt], model, tools, system, fuel) == Crashed(e)
  {
    assert WithSystemMessage(system, Seed(ReadPayload(map["prompt" := prompt]))) == [SystemMessage(system), HumanMessage(prompt)];
    var next := Seed(ReadPayload(map["prompt" := prompt])) + [AiMessage(reply)];
    assert ToolsCondition(next) == ToTools;
  }

  /** The graph's wiring promises no answer: a model that keeps calling a
      tool keeps the loop running for any amount of fuel. */
  lemma NoTerminationGuarantee(payload: map<string, Value>, tools: ToolRunner, system: string, fuel: nat, call: ToolCall)
    requires forall reply :: tools(reply).Returned?
    ensures Handle(payload, _ => Returned(AiReply("", [call])), tools, system, fuel) == OutOfFuel
  {
    AlwaysRequestingToolsNeverEnds(tools, system, Seed(ReadPayload(payload)), fuel, call);
  }
}

=== FILE: py_strings.dfy ===
/** The Python `str` operations the modelled code relies on: `find`, `rfind`,
    slicing with negative and out-of-range indices, `join`, repetition,
    ASCII `upper`/`lower` and decimal rendering of integers. */
module PyStrings {

  /** Decimal digit character for `d`. */
  function DigitChar(d: nat): (c: char)
    requires d < 10
    ensures '0' <= c <= '9'
    ensures (c as int) - ('0' as int) == d
  {
    "0123456789"[d]
  }

  predicate AllDigits(s: string) {
    forall i :: 0 <= i < |s| ==> '0' <= s[i] <= '9'
  }

  /** `str(n)` for a natural number: its decimal digits, no leading zero. */
  function NatToString(n: nat): (s: string)
    ensures |s| > 0 && AllDigits(s)
    ensures |s| > 1 ==> s[0] != '0'
    decreases n
  {
    if n < 10 then [DigitChar(n)] else NatToString(n / 10) + [DigitChar(n % 10)]
  }

  /** Reads back a string of decimal digits; the partner of `NatToString`. */
  function ParseDigits(s: string): nat
    requires AllDigits(s)
  {
    if |s| == 0 then 0
    else ParseDigits(s[..|s| - 1]) * 10 + ((s[|s| - 1] as int) - ('0' as int))
  }

  /** Rendering a number and reading it back gives the number. */
  lemma {:induction false} NatToStringRoundTrip(n: nat)
    ensures ParseDigits(NatToString(n)) == n
    decreases n
  {
    if n >= 10 {
      var s := NatToString(n);
      NatToStringRoundTrip(n / 10);
      assert s[..|s| - 1] == NatToString(n / 10);
    }
  }

  /** Distinct numbers render differently, so "Turn 3" and "Turn 13" never clash. */
  lemma NatToStringInjective(m: nat, n: nat)
    requires NatToString(m) == NatToString(n)
    ensures m == n
  {
    NatToStringRoundTrip(m);
    NatToStringRoundTrip(n);
  }

  /** `str(i)` for any integer. */
  function IntToString(i: int): (s: string)
    ensures |s| > 0
    ensures i < 0 <==> s[0] == '-'
  {
    if i < 0 then "-" + NatToString(-i) else NatToString(i)
  }

  /** `s.find(c)`: index of the first occurrence, or -1. */
  function Find(s: string, c: char): (r: int)
    ensures -1 <= r < |s|
    ensures r == -1 <==> c !in s
    ensures r >= 0 ==> s[r] == c && c !in s[..r]
  {
    if |s| == 0 then -1
    else if s[0] == c then 0
    else
      var k := Find(s[1..], c);
      assert s[1..][..(if k < 0 then 0 else k)] == s[1..1 + (if k < 0 then 0 else k)];
      if k == -1 then -1 else k + 1
  }

  /** `s.rfind(c)`: index of the last occurrence, or -1. */
  function RFind(s: string, c: char): (r: int)
    ensures -1 <= r < |s|
    ensures r == -1 <==> c !in s
    ensures r >= 0 ==> s[r] == c && c !in s[r + 1..]
  {
    if |s| == 0 then -1
    else if s[|s| - 1] == c then |s| - 1
    else
      var k := RFind(s[..|s| - 1], c);
      assert s == s[..|s| - 1] + [s[|s| - 1]];
      if k == -1 then -1
      else
        assert s[k + 1..] == s[..|s| - 1][k + 1..] + [s[|s| - 1]];
        k
  }

  /** An occurrence with none before it is the one `find` reports. */
  lemma FindIsFirst(s: string, c: char, i: nat)
    requires i < |s| && s[i] == c && c !in s[..i]
    ensures Find(s, c) == i
  {
  }

  /** An occurrence with none after it is the one `rfind` reports. */
  lemma RFindIsLast(s: string, c: char, i: nat)
    requires i < |s| && s[i] == c && c !in s[i + 1..]
    ensures RFind(s, c) == i
  {
  }

  /** `find` stops at the first occurrence after a prefix free of it. */
  lemma FindAfterPrefix(prefix: string, c: char, rest: string)
    requires c !in prefix
    ensures Find(prefix + [c] + rest, c) == |prefix|
  {
    var text := prefix + [c] + rest;
    assert text[..|prefix|] == prefix;
    FindIsFirst(text, c, |prefix|);
  }

  /** `rfind` stops at the last occurrence before a suffix free of it. */
  lemma RFindBeforeSuffix(rest: string, c: char, suffix: string)
    requires c !in suffix
    ensures RFind(rest + [c] + suffix, c) == |rest|
  {
    var text := rest + [c] + suffix;
    assert text[|rest| + 1..] == suffix;
    RFindIsLast(text, c, |rest|);
  }

  /** How Python normalises one slice bound against a length `n`:
      a negative bound counts from the end, and the result is clamped to [0, n]. */
  function SliceBound(i: int, n: nat): (r: nat)
    ensures r <= n
    ensures 0 <= i <= n ==> r == i
    ensures i < 0 && i + n >= 0 ==> r == i + n
    ensures i + n < 0 ==> r == 0
    ensures i > n ==> r == n
  {
    if i < 0 then (if i + n < 0 then 0 else i + n)
    else if i > n then n
    else i
  }

  /** Python's `s[start:stop]` (step 1): never fails, empty when the
      normalised start is not before the normalised stop. */
  function Slice(s: string, start: int, stop: int): (r: string)
  {
    var i := SliceBound(start, |s|);
    var j := SliceBound(stop, |s|);
    if i < j then s[i..j] else ""
  }

  /** With in-range bounds Python slicing is Dafny's subsequence. */
  lemma SliceInRange(s: string, i: int, j: int)
    requires 0 <= i <= j <= |s|
    ensures Slice(s, i, j) == s[i..j]
  {
  }

  /** A slice is always a contiguous piece of the sliced text. */
  lemma SliceIsPiece(s: string, start: int, stop: int)
    ensures exists i, j :: 0 <= i <= j <= |s| && Slice(s, start, stop) == s[i..j]
  {
    var i := SliceBound(start, |s|);
    var j := SliceBound(stop, |s|);
    if i < j {
      assert Slice(s, start, stop) == s[i..j];
    } else {
      assert Slice(s, start, stop) == s[0..0];
    }
  }

  /** A slice never grows, and it is empty when the normalised bounds cross. */
  lemma SliceShape(s: string, start: int, stop: int)
    ensures |Slice(s, start, stop)| <= |s|
    ensures SliceBound(stop, |s|) <= SliceBound(start, |s|) <==> Slice(s, start, stop) == ""
  {
  }

  /** A join starts with its first part. */
  lemma JoinPrefix(sep: string, parts: seq<string>)
    requires |parts| > 0
    ensures |Join(sep, parts)| >= |parts[0]| && Join(sep, parts)[..|parts[0]|] == parts[0]
  {
    if |parts| > 1 {
      assert Join(sep, parts) == parts[0] + (sep + Join(sep, parts[1..]));
    }
  }

  /** `sep.join(parts)`. */
  function Join(sep: string, parts: seq<string>): string
    decreases |parts|
  {
    if |parts| == 0 then ""
    else if |parts| == 1 then parts[0]
    else parts[0] + sep + Join(sep, parts[1..])
  }

  /** Joining one more part appends the separator and the part. */
  lemma {:induction false} JoinSnoc(sep: string, parts: seq<string>, p: string)
    requires |parts| > 0
    ensures Join(sep, parts + [p]) == Join(sep, parts) + sep + p
    decreases |parts|
  {
    if |parts| > 1 {
      assert (parts + [p])[1..] == parts[1..] + [p];
      JoinSnoc(sep, parts[1..], p);
    }
  }

  /** The length of a join: every part plus one separator between neighbours. */
  lemma {:induction false} JoinLength(sep: string, parts: seq<string>)
    requires |parts| > 0
    ensures |Join(sep, parts)| == SumLengths(parts) + (|parts| - 1) * |sep|
    decreases |parts|
  {
    if |parts| > 1 {
      JoinLength(sep, parts[1..]);
    }
  }

  function SumLengths(parts: seq<string>): nat {
    if |parts| == 0 then 0 else |parts[0]| + SumLengths(parts[1..])
  }

  /** `s * n` for a string: `n` copies of `s`, none when `n <= 0`. */
  function Repeat(s: string, n: int): (r: string)
    ensures |r| == (if n <= 0 then 0 else n * |s|)
    ensures forall c :: c in r ==> c in s
    decreases n
  {
    if n <= 0 then "" else s + Repeat(s, n - 1)
  }

  /** `c.upper()` restricted to ASCII letters; other characters are kept. */
  function UpperChar(c: char): char {
    if 'a' <= c <= 'z' then ((c as int) - 32) as char else c
  }

  /** `c.lower()` restricted to ASCII letters; other characters are kept. */
  function LowerChar(c: char): char {
    if 'A' <= c <= 'Z' then ((c as int) + 32) as char else c
  }

  /** `s.upper()`, character by character. */
  function Upper(s: string): (r: string)
    ensures |r| == |s|
    ensures forall i :: 0 <= i < |s| ==> r[i] == UpperChar(s[i])
  {
    if |s| == 0 then "" else [UpperChar(s[0])] + Upper(s[1..])
  }

  /** `s.lower()`, character by character. */
  function Lower(s: string): (r: string)
    ensures |r| == |s|
    ensures forall i :: 0 <= i < |s| ==> r[i] == LowerChar(s[i])
  {
    if |s| == 0 then "" else [LowerChar(s[0])] + Lower(s[1..])
  }

  predicate NoLowerAscii(s: string) {
    forall i :: 0 <= i < |s| ==> !('a' <= s[i] <= 'z')
  }

  predicate NoUpperAscii(s: string) {
    forall i :: 0 <= i < |s| ==> !('A' <= s[i] <= 'Z')
  }

  /** Upper-casing leaves no lower-case letter and is idempotent. */
  lemma UpperNormalises(s: string)
    ensures NoLowerAscii(Upper(s))
    ensures Upper(Upper(s)) == Upper(s)
  {
  }

  /** Lower-casing leaves no upper-case letter and is idempotent. */
  lemma LowerNormalises(s: string)
    ensures NoUpperAscii(Lower(s))
    ensures Lower(Lower(s)) == Lower(s)
  {
  }

  /** A string without upper-case letters is its own lower-case form. */
  lemma LowerKeepsLowercase(s: string)
    requires NoUpperAscii(s)
    ensures Lower(s) == s
  {
  }

  /** A string without lower-case letters is its own upper-case form. */
  lemma UpperKeepsUppercase(s: string)
    requires NoLowerAscii(s)
    ensures Upper(s) == s
  {
  }

  /** Two strings that differ only in letter case upper-case to the same string. */
  lemma UpperIgnoresCase(s: string)
    ensures Upper(Lower(s)) == Upper(s)
  {
  }

  /** Two strings that differ only in letter case lower-case to the same string. */
  lemma LowerIgnoresCase(s: string)
    ensures Lower(Upper(s)) == Lower(s)
  {
  }
}

=== FILE: py_values.dfy ===
/** Python runtime values and exceptions, as far as the modelled code looks at
    them: `dict.get` with a default, truthiness, `str()`, the type name that
    Python puts into its error messages, and `x * 10`. */
module PyValues {
  import opened PyStrings

  datatype Option<+T> = None | Some(value: T) {
    function GetOr(default: T): T {
      match this
      case Some(v) => v
      case None => default
    }
  }

  /** A raised Python exception: its class name and `str(e)`. */
  datatype Exception = Exception(kind: string, message: string)

  /** What a Python call does: return a value or raise. */
  datatype Outcome<+T> = Returned(value: T) | Raised(error: Exception)

  /** A Python object as the code sees it. A dict keeps the text `str()`
      gives for it, since Python's `repr` escaping is not modelled. */
  datatype Value =
    | VNone
    | VBool(b: bool)
    | VInt(i: int)
    | VStr(s: string)
    | VDict(entries: map<string, Value>, shown: string)

  /** The type name Python prints in `AttributeError`/`TypeError` messages. */
  function TypeName(v: Value): string {
    match v
    case VNone => "NoneType"
    case VBool(_) => "bool"
    case VInt(_) => "int"
    case VStr(_) => "str"
    case VDict(_, _) => "dict"
  }

  /** `bool(v)`: None, False, 0, "" and {} are falsy. */
  predicate Truthy(v: Value) {
    match v
    case VNone => false
    case VBool(b) => b
    case VInt(i) => i != 0
    case VStr(s) => s != ""
    case VDict(m, _) => |m| > 0
  }

  /** `str(v)`, which is also what an f-string interpolates. */
  function Str(v: Value): string {
    match v
    case VNone => "None"
    case VBool(b) => if b then "True" else "False"
    case VInt(i) => IntToString(i)
    case VStr(s) => s
    case VDict(_, shown) => shown
  }

  /** `d.get(key, default)` on a dict. */
  function Get(d: map<string, Value>, key: string, default: Value): (v: Value)
    ensures key in d ==> v == d[key]
    ensures key !in d ==> v == default
  {
    if key in d then d[key] else default
  }

  /** The exception Python raises for `v.<attr>` on a value without that attribute. */
  function NoAttribute(v: Value, attr: string): Exception {
    Exception("AttributeError", "'" + TypeName(v) + "' object has no attribute '" + attr + "'")
  }

  /** `v * 10` with Python's operator: ints multiply (a bool counts as 0 or 1),
      strings repeat, None and dicts raise `TypeError`. */
  function TimesTen(v: Value): (r: Outcome<Value>)
    ensures r.Raised? <==> v.VNone? || v.VDict?
    ensures v.VInt? ==> r == Returned(VInt(10 * v.i))
    ensures v.VStr? ==> r.Returned? && r.value.VStr? && |r.value.s| == 10 * |v.s|
  {
    match v
    case VInt(i) => Returned(VInt(i * 10))
    case VBool(b) => Returned(VInt(if b then 10 else 0))
    case VStr(s) => Returned(VStr(Repeat(s, 10)))
    case _ => Raised(Exception("TypeError",
                "unsupported operand type(s) for *: '" + TypeName(v) + "' and 'int'"))
  }
}

=== FILE: quiz_generator.dfy ===
/** The quiz generator tool (core/tools/libs/quiz_generator_tool.py): reads
    topic, difficulty and question count from the nested "kwargs" argument,
    asks a knowledge base to write the quiz, cuts the JSON object out of the
    answer and re-serialises it, and falls back to a fixed placeholder quiz
    on any failure. The knowledge-base call and the JSON codec are parameters. */
module QuizGenerator {
  import opened PyStrings
  import opened PyValues
  import opened Json
  import opened ToolInterface
  import ToolFactory

  const DefaultTopic := VStr("IT知識")
  const DefaultDifficulty := VStr("初級")
  const DefaultNumQuestions := VInt(3)

  datatype QuizParams = QuizParams(topic: Value, difficulty: Value, numQuestions: Value)

  /** The parameters, read only from the dict under the keyword "kwargs"
      (an absent entry reads as `{}`); top-level keywords are ignored. A
      non-dict entry has no `.get` and raises before the `try`. */
  function ReadParams(kwargs: map<string, Value>): (r: Outcome<QuizParams>)
    ensures "kwargs" !in kwargs ==> r == Returned(QuizParams(DefaultTopic, DefaultDifficulty, DefaultNumQuestions))
    ensures "kwargs" in kwargs && !kwargs["kwargs"].VDict? ==> r.Raised? && r.error.kind == "AttributeError"
    ensures "kwargs" in kwargs && kwargs["kwargs"].VDict? ==> (
      var inner := kwargs["kwargs"].entries;
      && r.Returned?
      && r.value.topic == (if "topic" in inner then inner["topic"] else DefaultTopic)
      && r.value.difficulty == (if "difficulty" in inner then inner["difficulty"] else DefaultDifficulty)
      && r.value.numQuestions == (if "num_questions" in inner then inner["num_questions"] else DefaultNumQuestions))
  {
    var nested := Get(kwargs, "kwargs", VDict(map[], "{}"));
    if !nested.VDict? then Raised(NoAttribute(nested, "get"))
    else
      var inner := nested.entries;
      Returned(QuizParams(
        Get(inner, "topic", DefaultTopic),
        Get(inner, "difficulty", DefaultDifficulty),
        Get(inner, "num_questions", DefaultNumQuestions)))
  }

  /** Only the nested entry matters: adding or changing any other keyword
      argument leaves the parameters unchanged. */
  lemma TopLevelKeywordsIgnored(kwargs: map<string, Value>, key: string, v: Value)
    requires key != "kwargs"
    ensures ReadParams(kwargs[key := v]) == ReadParams(kwargs)
  {
  }

  /** What the knowledge base is asked: the query interpolates the question
      count, the difficulty and the topic as `str()` texts. */
  datatype QuizQuery = QuizQuery(numQuestions: string, difficulty: string, topic: string)

  function QueryFor(p: QuizParams): QuizQuery {
    QuizQuery(Str(p.numQuestions), Str(p.difficulty), Str(p.topic))
  }

  /** `retrieve_and_generate` followed by `response["output"]["text"]`,
      and the JSON codec used on its answer. */
  datatype QuizBackend = QuizBackend(generate: QuizQuery -> Outcome<string>, codec: Codec)

  /** The brace extraction: from the first '{' through the last '}'
      inclusive, as the Python slice `text[start:end]`; None (the source
      raises ValueError) when either brace is missing. When the last '}'
      comes before the first '{' the slice is empty. */
  function ExtractBraces(text: string): (r: Option<string>)
    ensures r.Some? <==> '{' in text && '}' in text
    ensures r.Some? && Find(text, '{') <= RFind(text, '}') ==>
      r.value == text[Find(text, '{')..RFind(text, '}') + 1]
    ensures r.Some? && Find(text, '{') > RFind(text, '}') ==> r.value == ""
  {
    var start := Find(text, '{');
    var end := RFind(text, '}') + 1;
    if start != -1 && end != 0 then Some(Slice(text, start, end)) else None
  }

  /** The extracted text is the widest brace-delimited part: it starts with
      the first '{', ends with the last '}', and nothing before it holds a
      '{' and nothing after it holds a '}'. */
  lemma ExtractBracesIsWidest(text: string)
    requires ExtractBraces(text).Some? && ExtractBraces(text).value != ""
    ensures exists i, j :: (
      && 0 <= i < j <= |text|
      && ExtractBraces(text).value == text[i..j]
      && text[i] == '{' && '{' !in text[..i]
      && text[j - 1] == '}' && '}' !in text[j..])
  {
    var i := Find(text, '{');
    var j := RFind(text, '}') + 1;
    assert i < j;
  }

  /** `range(num_questions)` length: a non-negative int counts itself, a
      negative one gives an empty range, a bool counts as 0 or 1, and
      anything else raises TypeError (from inside the `except`, so it escapes). */
  function FallbackCount(n: Value): (r: Outcome<nat>)
    ensures n.VInt? ==> r == Returned(if n.i < 0 then 0 else n.i)
    ensures n.VBool? ==> r == Returned(if n.b then 1 else 0)
    ensures !n.VInt? && !n.VBool? ==> r.Raised? && r.error.kind == "TypeError"
  {
    match n
    case VInt(i) => Returned(if i < 0 then 0 else i)
    case VBool(b) => Returned(if b then 1 else 0)
    case _ => Outcome<nat>.Raised(Exception("TypeError", "'" + TypeName(n) + "' object cannot be interpreted as an integer"))
  }

  const PlaceholderSelect := JObject([("A", JString("選択肢A")), ("B", JString("選択肢B")), ("C", JString("選択肢C"))])

  function FallbackQuestion(topicText: string, i: nat): Json {
    JString(topicText + "に関する問題" + NatToString(i + 1))
  }

  function FallbackExplanation(i: nat): Json {
    JString("問題" + NatToString(i + 1) + "の解説")
  }

  /** The placeholder quiz for `count` questions. */
  function FallbackQuiz(topicText: string, count: nat): (q: Json)
    ensures q.JObject? && |q.members| == 4
    ensures q.members[0].0 == "questions" && q.members[1].0 == "selects"
    ensures q.members[2].0 == "answers" && q.members[3].0 == "explanations"
    ensures forall m :: m in q.members ==> m.1.JArray? && |m.1.items| == count
    ensures forall i :: 0 <= i < count ==> q.members[0].1.items[i] == FallbackQuestion(topicText, i)
    ensures forall i :: 0 <= i < count ==> q.members[1].1.items[i] == PlaceholderSelect
    ensures forall i :: 0 <= i < count ==> q.members[2].1.items[i] == JString("A")
    ensures forall i :: 0 <= i < count ==> q.members[3].1.items[i] == FallbackExplanation(i)
  {
    JObject([
      ("questions", JArray(seq(count, i requires 0 <= i < count => FallbackQuestion(topicText, i)))),
      ("selects", JArray(seq(count, _ => PlaceholderSelect))),
      ("answers", JArray(seq(count, _ => JString("A")))),
      ("explanations", JArray(seq(count, i requires 0 <= i < count => FallbackExplanation(i))))])
  }

  /** The `except` branch: the serialised placeholder quiz, or the TypeError
      a non-integer question count raises there. */
  function Fallback(p: QuizParams, codec: Codec): (r: Outcome<string>)
    ensures FallbackCount(p.numQuestions).Raised? ==> r == Raised(FallbackCount(p.numQuestions).error)
    ensures FallbackCount(p.numQuestions).Returned? ==>
      r == Returned(codec.dumps(FallbackQuiz(Str(p.topic), FallbackCount(p.numQuestions).value)))
  {
    match FallbackCount(p.numQuestions)
    case Raised(e) => Raised(e)
    case Returned(count) => Returned(codec.dumps(FallbackQuiz(Str(p.topic), count)))
  }

  /** `run`: the re-serialised extracted object when the knowledge base
      answers and the extracted text parses; the fallback otherwise. */
  function Run(kwargs: map<string, Value>, backend: QuizBackend): (r: Outcome<string>)
    ensures ReadParams(kwargs).Raised? ==> r == Raised(ReadParams(kwargs).error)
  {
    match ReadParams(kwargs)
    case Raised(e) => Raised(e)
    case Returned(p) =>
      match backend.generate(QueryFor(p))
      case Raised(_) => Fallback(p, backend.codec)
      case Returned(answer) =>
        match ExtractBraces(answer)
        case None => Fallback(p, backend.codec)
        case Some(extracted) =>
          match backend.codec.loads(extracted)
          case Raised(_) => Fallback(p, backend.codec)
          case Returned(quiz) => Returned(backend.codec.dumps(quiz))
  }

  /** Success path: when the extracted text parses, the result is exactly
      its re-serialisation, whatever the question count is. */
  lemma RunReserialises(kwargs: map<string, Value>, backend: QuizBackend, answer: string, quiz: Json)
    requires ReadParams(kwargs).Returned?
    requires backend.generate(QueryFor(ReadParams(kwargs).value)) == Returned(answer)
    requires ExtractBraces(answer).Some?
    requires backend.codec.loads(ExtractBraces(answer).value) == Returned(quiz)
    ensures Run(kwargs, backend) == Returned(backend.codec.dumps(quiz))
  {
  }

  /** An answer without a '{' or without a '}' yields the fallback quiz. */
  lemma MissingBraceFallsBack(kwargs: map<string, Value>, backend: QuizBackend, answer: string)
    requires ReadParams(kwargs).Returned?
    requires backend.generate(QueryFor(ReadParams(kwargs).value)) == Returned(answer)
    requires '{' !in answer || '}' !in answer
    ensures Run(kwargs, backend) == Fallback(ReadParams(kwargs).value, backend.codec)
  {
  }

  /** Every failure inside the `try` gives the fallback: a raising
      knowledge base, an answer without both braces, or an extracted text
      the parser rejects. */
  lemma RunFallsBack(kwargs: map<string, Value>, backend: QuizBackend)
    requires ReadParams(kwargs).Returned?
    ensures
      var p := ReadParams(kwargs).value;
      var answer := backend.generate(QueryFor(p));
      (|| answer.Raised?
       || ExtractBraces(answer.value).None?
       || backend.codec.loads(ExtractBraces(answer.value).value).Raised?)
      ==> Run(kwargs, backend) == Fallback(p, backend.codec)
  {
  }

  /** Once the parameters are read there are exactly two outcomes: the
      re-serialisation of a quiz the parser produced from the extracted
      answer, or the fallback. A result other than the fallback always
      comes from the success path. */
  lemma RunDichotomy(kwargs: map<string, Value>, backend: QuizBackend)
    requires ReadParams(kwargs).Returned?
    ensures
      var p := ReadParams(kwargs).value;
      var answer := backend.generate(QueryFor(p));
      || Run(kwargs, backend) == Fallback(p, backend.codec)
      || (&& answer.Returned?
          && ExtractBraces(answer.value).Some?
          && backend.codec.loads(ExtractBraces(answer.value).value).Returned?
          && Run(kwargs, backend) == Returned(backend.codec.dumps(backend.codec.loads(ExtractBraces(answer.value).value).value)))
  {
  }

  /** With no arguments at all, a failing knowledge base gives three
      placeholder questions about "IT知識", each answered "A". */
  lemma DefaultFallback(backend: QuizBackend, e: Exception)
    requires backend.generate(QuizQuery("3", "初級", "IT知識")) == Raised(e)
    ensures Run(map[], backend) == Returned(backend.codec.dumps(FallbackQuiz("IT知識", 3)))
    ensures FallbackQuiz("IT知識", 3).members[2].1.items == [JString("A"), JString("A"), JString("A")]
  {
    assert QueryFor(ReadParams(map[]).value) == QuizQuery("3", "初級", "IT知識");
  }

  // ---------------------------------------------------------------------
  // The tool and its registered class
  // ---------------------------------------------------------------------

  const ToolName := "generate_quiz"
  const ToolDescription := "既存のナレッジベースから新入社員向けの3択問題集をJSON形式で生成します。トピック、難易度、問題数を指定できます。"

  /** The tool instance; positional arguments are ignored. */
  function QuizTool(backend: QuizBackend): Tool {
    Tool(ToolName, Some(ToolDescription), (args: CallArgs) =>
      match Run(args.keyword, backend)
      case Returned(text) => Returned(VStr(text))
      case Raised(e) => Raised(e))
  }

  const ClassName := "QuizGeneratorTool"

  function QuizClass(backend: QuizBackend): ToolFactory.ToolClass {
    ToolFactory.ZeroArgumentClass(ClassName, QuizTool(backend))
  }

  /** The registry key is the class name, not the tool name: after
      registering the class, "QuizGeneratorTool" is listed and creates a tool
      named "generate_quiz", while "generate_quiz" is not registered. */
  lemma RegistryKeyIsClassName(backend: QuizBackend)
    ensures var reg := ToolFactory.RegisterTool(ToolFactory.EmptyRegistry, QuizClass(backend)).0;
      && ToolFactory.ListTools(reg) == ["QuizGeneratorTool"]
      && ToolFactory.CreateTool(reg, "QuizGeneratorTool", NoArgs) == Returned(QuizTool(backend))
      && QuizTool(backend).name == "generate_quiz"
      && ToolFactory.CreateTool(reg, "generate_quiz", NoArgs) == Raised(ToolFactory.NotRegistered("generate_quiz"))
  {
    var reg := ToolFactory.RegisterTool(ToolFactory.EmptyRegistry, QuizClass(backend)).0;
    assert ToolFactory.Lookup(reg, "generate_quiz").None?;
  }
}

=== FILE: tool_factory.dfy ===
/** The tool registry (core/tools/tool_factory.py). The registry is a Python
    dict from a class's `__name__` to the class; a dict keeps insertion order
    and re-assigning an existing key keeps its position, so it is modelled as
    the sequence of registered classes with pairwise distinct class names. */
module ToolFactory {
  import opened PyStrings
  import opened PyValues
  import opened ToolInterface

  /** A tool class: its `__name__` and what calling it with some arguments does. */
  datatype ToolClass = ToolClass(className: string, construct: CallArgs -> Outcome<Tool>)

  predicate DistinctNames(classes: seq<ToolClass>) {
    forall i, j :: 0 <= i < j < |classes| ==> classes[i].className != classes[j].className
  }

  type Registry = classes: seq<ToolClass> | DistinctNames(classes)

  const EmptyRegistry: Registry := []

  /** Position of the class registered under `name`, if any. */
  function IndexOf(reg: Registry, name: string): (r: Option<nat>)
    ensures r.Some? ==> r.value < |reg| && reg[r.value].className == name
    ensures r.None? ==> forall i :: 0 <= i < |reg| ==> reg[i].className != name
  {
    if |reg| == 0 then None
    else if reg[|reg| - 1].className == name then Some(|reg| - 1)
    else IndexOf(reg[..|reg| - 1], name)
  }

  /** `_registry.get(name)`. */
  function Lookup(reg: Registry, name: string): (r: Option<ToolClass>)
    ensures r.Some? <==> exists i :: 0 <= i < |reg| && reg[i].className == name
    ensures r.Some? ==> r.value in reg && r.value.className == name
  {
    match IndexOf(reg, name)
    case Some(i) => Some(reg[i])
    case None => None
  }

  /** `list_tools`: the registry's keys in insertion order. */
  function ListTools(reg: Registry): (names: seq<string>)
    ensures |names| == |reg|
    ensures forall i :: 0 <= i < |reg| ==> names[i] == reg[i].className
  {
    seq(|reg|, i requires 0 <= i < |reg| => reg[i].className)
  }

  /** `register_tool` (the class decorator): stores `c` under its class name,
      overwriting an earlier class of the same name in place, and returns
      `c` unchanged. The registry key is the class name, never `Tool.name`. */
  function RegisterTool(reg: Registry, c: ToolClass): (r: (Registry, ToolClass))
    ensures r.1 == c
    ensures Lookup(r.0, c.className) == Some(c)
    ensures forall n :: n != c.className ==> Lookup(r.0, n) == Lookup(reg, n)
    ensures Lookup(reg, c.className).Some? ==> ListTools(r.0) == ListTools(reg)
    ensures Lookup(reg, c.className).None? ==> ListTools(r.0) == ListTools(reg) + [c.className]
  {
    match IndexOf(reg, c.className)
    case Some(i) =>
      var updated: Registry := reg[i := c];
      forall n | n != c.className
        ensures Lookup(updated, n) == Lookup(reg, n)
      {
        LookupByPosition(updated, n);
        LookupByPosition(reg, n);
        if j :| 0 <= j < |reg| && reg[j].className == n {
          assert updated[j] == reg[j];
        }
      }
      LookupByPosition(updated, c.className);
      assert updated[i] == c;
      (updated, c)
    case None =>
      var grown: Registry := reg + [c];
      forall n | n != c.className
        ensures Lookup(grown, n) == Lookup(reg, n)
      {
        LookupByPosition(grown, n);
        LookupByPosition(reg, n);
        if j :| 0 <= j < |reg| && reg[j].className == n {
          assert grown[j] == reg[j];
        }
      }
      LookupByPosition(grown, c.className);
      assert grown[|reg|] == c;
      (grown, c)
  }

  /** With distinct names, a lookup returns the one class at the matching position. */
  lemma LookupByPosition(reg: Registry, name: string)
    ensures forall i :: 0 <= i < |reg| && reg[i].className == name ==> Lookup(reg, name) == Some(reg[i])
  {
  }

  function NotRegistered(name: string): Exception {
    Exception("ValueError", "Tool '" + name + "' is not registered.")
  }

  /** `create_tool(name, *args, **kwargs)`: ValueError for an unknown key,
      otherwise whatever calling the stored class with the arguments does. */
  function CreateTool(reg: Registry, name: string, args: CallArgs): (r: Outcome<Tool>)
    ensures Lookup(reg, name).None? ==> r == Raised(NotRegistered(name))
    ensures Lookup(reg, name).Some? ==> r == Lookup(reg, name).value.construct(args)
  {
    match Lookup(reg, name)
    case None => Raised(NotRegistered(name))
    case Some(c) => c.construct(args)
  }

  /** Every listed name reaches its class through `create_tool`, and every
      other name is refused as not registered. */
  lemma ListedNamesAreCreatable(reg: Registry, name: string, args: CallArgs)
    ensures name in ListTools(reg) <==> Lookup(reg, name).Some?
    ensures name in ListTools(reg) ==> CreateTool(reg, name, args) == Lookup(reg, name).value.construct(args)
    ensures name !in ListTools(reg) ==> CreateTool(reg, name, args) == Raised(NotRegistered(name))
  {
    var names := ListTools(reg);
    if name in names {
      var i :| 0 <= i < |names| && names[i] == name;
      assert reg[i].className == name;
    }
  }

  /** A class whose `__init__` takes only `self`: calling it with no
      arguments gives `instance`, any argument is a TypeError. */
  function ZeroArgumentClass(className: string, instance: Tool): (c: ToolClass)
    ensures c.className == className
    ensures c.construct(NoArgs) == Returned(instance)
    ensures forall args :: args != NoArgs ==> c.construct(args).Raised? && c.construct(args).error.kind == "TypeError"
  {
    ToolClass(className, (args: CallArgs) =>
      if |args.positional| > 0 then
        Raised(Exception("TypeError", className + ".__init__() takes 1 positional argument but "
          + NatToString(|args.positional| + 1) + " were given"))
      else if |args.keyword| > 0 then
        Raised(Exception("TypeError", className + ".__init__() got an unexpected keyword argument"))
      else Returned(instance))
  }

  /** The operations a process can perform on the registry. */
  datatype RegistryOp =
    | Register(c: ToolClass)
    | Create(name: string, args: CallArgs)
    | List

  /** The registry after one operation: only registration changes it. */
  function Step(reg: Registry, op: RegistryOp): Registry {
    match op
    case Register(c) => RegisterTool(reg, c).0
    case Create(_, _) => reg
    case List => reg
  }

  function Replay(reg: Registry, ops: seq<RegistryOp>): Registry
    decreases |ops|
  {
    if |ops| == 0 then reg else Replay(Step(reg, ops[0]), ops[1..])
  }

  /** No operation removes an entry: every name listed before a run of
      operations is still listed, and still at the same position, afterwards. */
  lemma {:induction false} KeysOnlyGrow(reg: Registry, ops: seq<RegistryOp>)
    ensures |Replay(reg, ops)| >= |reg|
    ensures ListTools(Replay(reg, ops))[..|reg|] == ListTools(reg)
    decreases |ops|
  {
    if |ops| > 0 {
      var next := Step(reg, ops[0]);
      assert |next| >= |reg| && ListTools(next)[..|reg|] == ListTools(reg);
      KeysOnlyGrow(next, ops[1..]);
    }
  }
}

=== FILE: tool_interface.dfy ===
/** The tool interface (core/tools/tool_interface.py): a tool has a `name`,
    a `description` that defaults to "", and `run(*args, **kwargs)`;
    `as_langchain_tool` re-exposes it under that name and description. */
module ToolInterface {
  import opened PyValues

  /** The positional and keyword arguments of one Python call. */
  datatype CallArgs = CallArgs(positional: seq<Value>, keyword: map<string, Value>)

  const NoArgs := CallArgs([], map[])

  /** A tool instance. `overriddenDescription` is None when the subclass
      does not override the `description` property. */
  datatype Tool = Tool(
    name: string,
    overriddenDescription: Option<string>,
    run: CallArgs -> Outcome<Value>)

  /** The `description` property: the override, or the base class's "". */
  function Description(t: Tool): (d: string)
    ensures t.overriddenDescription.None? ==> d == ""
    ensures t.overriddenDescription.Some? ==> d == t.overriddenDescription.value
  {
    t.overriddenDescription.GetOr("")
  }

  /** What the langchain `tool` decorator is handed: a wrapper function with
      its `__name__` and `__doc__` set, and the call it performs. */
  datatype LangchainTool = LangchainTool(
    name: string,
    doc: string,
    invoke: CallArgs -> Outcome<Value>)

  const DecoratorMissing :=
    Exception("ImportError", "langchain_core.tools.tool is required to use as_langchain_tool.")

  /** `as_langchain_tool`: fails with ImportError when the decorator cannot be
      imported; otherwise the wrapper carries the tool's name and description
      and forwards every call to `run` with nothing caught, so a raised
      exception reaches the caller unchanged. */
  function AsLangchainTool(t: Tool, decoratorImportable: bool): (r: Outcome<LangchainTool>)
    ensures r.Raised? <==> !decoratorImportable
    ensures r.Raised? ==> r.error.kind == "ImportError"
    ensures r.Returned? ==> r.value.name == t.name && r.value.doc == Description(t)
    ensures r.Returned? ==> forall args :: r.value.invoke(args) == t.run(args)
  {
    if !decoratorImportable then Raised(DecoratorMissing)
    else Returned(LangchainTool(t.name, Description(t), args => t.run(args)))
  }

  /** The adapter neither invents results nor catches errors: whatever `run`
      raises, invoking the adapted tool raises too. */
  lemma AdapterPropagatesErrors(t: Tool, args: CallArgs, e: Exception)
    requires t.run(args) == Raised(e)
    ensures AsLangchainTool(t, true).value.invoke(args) == Raised(e)
  {
  }
}

=== FILE: training_agent.dfy ===
/** The training (quiz) agent: its tools are every registered tool class,
    constructed without arguments and adapted for langchain; its entrypoint
    runs the chatbot/tools graph, cuts the JSON object out of the final
    answer (falling back to an error envelope), saves the exchange and
    returns the post-processed text. */
module TrainingAgent {
  import opened PyStrings
  import opened PyValues
  import opened Json
  import opened ToolInterface
  import opened ToolFactory
  import opened Graph
  import opened AgentRequests
  import QuizGenerator

  const DefaultMemoryId := "genquiz_memory-U5BEjJ8NGy"
  const InvalidJsonMessage := "無効なJSON形式です"

  // ---------------------------------------------------------------------
  // Tools from the registry
  // ---------------------------------------------------------------------

  /** `[tool_cls() for tool_cls in _registry.values()]`: in registry order;
      the first constructor that raises aborts the comprehension. */
  function Instantiate(classes: seq<ToolClass>): (r: Outcome<seq<Tool>>)
    ensures r.Returned? <==> forall i :: 0 <= i < |classes| ==> classes[i].construct(NoArgs).Returned?
    ensures r.Returned? ==> (
      && |r.value| == |classes|
      && forall i :: 0 <= i < |classes| ==> classes[i].construct(NoArgs) == Returned(r.value[i]))
    ensures r.Raised? ==> exists i :: (
      && 0 <= i < |classes|
      && classes[i].construct(NoArgs) == Raised(r.error)
      && forall k :: 0 <= k < i ==> classes[k].construct(NoArgs).Returned?)
    decreases |classes|
  {
    if |classes| == 0 then Returned([])
    else
      match classes[0].construct(NoArgs)
      case Raised(e) => Raised(e)
      case Returned(t) =>
        var rest := Instantiate(classes[1..]);
        assert forall i :: 1 <= i < |classes| ==> classes[i] == classes[1..][i - 1];
        match rest
        case Raised(e) =>
          ghost var j :| 0 <= j < |classes[1..]| && classes[1..][j].construct(NoArgs) == Raised(e) &&
            forall k :: 0 <= k < j ==> classes[1..][k].construct(NoArgs).Returned?;
          assert classes[j + 1].construct(NoArgs) == Raised(e);
          Raised(e)
        case Returned(ts) => Returned([t] + ts)
  }

  /** `[t.as_langchain_tool() for t in tool_instances]`. */
  function AdaptAll(tools: seq<Tool>, decoratorImportable: bool): (r: Outcome<seq<LangchainTool>>)
    ensures decoratorImportable ==> r.Returned? && |r.value| == |tools|
    ensures decoratorImportable ==> forall i :: 0 <= i < |tools| ==> (
      && r.value[i].name == tools[i].name
      && r.value[i].doc == Description(tools[i])
      && forall args :: r.value[i].invoke(args) == tools[i].run(args))
    ensures !decoratorImportable ==> r == (if |tools| == 0 then Returned([]) else Raised(DecoratorMissing))
    decreases |tools|
  {
    if |tools| == 0 then Returned([])
    else
      match AsLangchainTool(tools[0], decoratorImportable)
      case Raised(e) => Raised(e)
      case Returned(adapted) =>
        match AdaptAll(tools[1..], decoratorImportable)
        case Raised(e) => Raised(e)
        case Returned(rest) =>
          assert forall i :: 1 <= i < |tools| ==> tools[i] == tools[1..][i - 1];
          Returned([adapted] + rest)
  }

  /** The tool list bound to the model and handed to the ToolNode. */
  function BoundTools(reg: Registry, decoratorImportable: bool): (r: Outcome<seq<LangchainTool>>)
    ensures r.Returned? ==> |r.value| == |reg|
  {
    match Instantiate(reg)
    case Raised(e) => Raised(e)
    case Returned(tools) => AdaptAll(tools, decoratorImportable)
  }

  /** With zero-argument classes and the decorator available, the bound list
      holds one adapter per registry entry, in registry order, exposing each
      instance's tool name (not its registry key) and forwarding to its `run`. */
  lemma BoundToolsFollowRegistry(reg: Registry, instances: seq<Tool>)
    requires |instances| == |reg|
    requires forall i :: 0 <= i < |reg| ==> reg[i].construct(NoArgs) == Returned(instances[i])
    ensures BoundTools(reg, true).Returned?
    ensures forall i :: 0 <= i < |reg| ==>
      && BoundTools(reg, true).value[i].name == instances[i].name
      && BoundTools(reg, true).value[i].doc == Description(instances[i])
      && forall args :: BoundTools(reg, true).value[i].invoke(args) == instances[i].run(args)
  {
    var tools := Instantiate(reg).value;
    assert forall i :: 0 <= i < |reg| ==> tools[i] == instances[i];
  }

  /** Built once at start-up: the model bound to the tools and the ToolNode
      over the same list. Binding and the ToolNode are external. */
  datatype Agent = Agent(model: Model, tools: ToolRunner)

  function CreateAgent(
    reg: Registry, decoratorImportable: bool,
    bindTools: seq<LangchainTool> -> Model, toolNode: seq<LangchainTool> -> ToolRunner): (r: Outcome<Agent>)
    ensures r.Returned? <==> BoundTools(reg, decoratorImportable).Returned?
    ensures r.Returned? ==> exists tools ::
      && BoundTools(reg, decoratorImportable) == Returned(tools)
      && r.value == Agent(bindTools(tools), toolNode(tools))
  {
    match BoundTools(reg, decoratorImportable)
    case Raised(e) => Raised(e)
    case Returned(tools) => Returned(Agent(bindTools(tools), toolNode(tools)))
  }

  // ---------------------------------------------------------------------
  // JSON post-processing
  // ---------------------------------------------------------------------

  /** `response[response.find('{') : response.rfind('}') + 1]`, with no
      guard for a missing brace. */
  function JsonSlice(response: string): (s: string)
    ensures '{' in response && '}' in response && Find(response, '{') <= RFind(response, '}') ==>
      s == response[Find(response, '{')..RFind(response, '}') + 1]
    ensures '{' in response && '}' !in response ==> s == ""
    ensures '{' in response && Find(response, '{') > RFind(response, '}') ==> s == ""
    ensures '{' !in response ==> s == "" || s == "}"
  {
    if '{' !in response then
      NoOpeningBraceSlice(response);
      Slice(response, -1, RFind(response, '}') + 1)
    else Slice(response, Find(response, '{'), RFind(response, '}') + 1)
  }

  /** Whatever the response, the slice is a contiguous piece of it: the
      agent never returns text the model did not produce. */
  lemma JsonSliceIsPiece(response: string)
    ensures exists i, j :: 0 <= i <= j <= |response| && JsonSlice(response) == response[i..j]
  {
    SliceIsPiece(response, Find(response, '{'), RFind(response, '}') + 1);
  }

  /** With start -1 the slice begins at the last character, so it is at
      most that character, and only when that character is the last '}'. */
  lemma NoOpeningBraceSlice(response: string)
    requires '{' !in response
    ensures var s := Slice(response, -1, RFind(response, '}') + 1); s == "" || s == "}"
  {
    var n := |response|;
    var end := RFind(response, '}') + 1;
    if n > 0 && SliceBound(-1, n) < SliceBound(end, n) {
      assert end == n;
      assert Slice(response, -1, end) == [response[n - 1]];
    }
  }

  /** Once the first '{' and the last '}' are located, in order, the slice
      is the text from one to the other. */
  lemma BracesLocated(text: string, start: nat, stop: nat)
    requires start < stop <= |text|
    requires Find(text, '{') == start && RFind(text, '}') + 1 == stop
    ensures JsonSlice(text) == text[start..stop]
  {
    SliceInRange(text, start, stop);
  }

  /** Text around one brace-delimited object: the slice is that object. */
  lemma WrappedObjectSlice(before: string, body: string, after: string)
    requires '{' !in before && '}' !in after
    ensures JsonSlice(before + "{" + body + "}" + after) == "{" + body + "}"
  {
    var wrapped := "{" + body + "}";
    var text := before + wrapped + after;
    assert text == before + ['{'] + (body + "}" + after);
    FindAfterPrefix(before, '{', body + "}" + after);
    assert text == (before + "{" + body) + ['}'] + after;
    RFindBeforeSuffix(before + "{" + body, '}', after);
    BracesLocated(text, |before|, |before| + |wrapped|);
    assert text[|before|..|before| + |wrapped|] == wrapped;
  }

  /** When both braces are present the agent cuts out exactly what the quiz
      tool cuts out. */
  lemma SliceAgreesWithQuizTool(response: string)
    requires '{' in response && '}' in response
    ensures JsonSlice(response) == QuizGenerator.ExtractBraces(response).value
  {
  }

  /** The envelope returned when the slice is not JSON: the fixed error text
      and the raw response, in that order. */
  function ErrorEnvelope(raw: string): (j: Json)
    ensures Member(j, "error") == Some(JString(InvalidJsonMessage))
    ensures Member(j, "message") == Some(JString(raw))
  {
    var members := [("error", JString(InvalidJsonMessage)), ("message", JString(raw))];
    assert members[1..] == [("message", JString(raw))];
    assert Member(JObject(members[1..]), "message") == Some(JString(raw));
    JObject(members)
  }

  /** The text the entrypoint returns and saves: the slice when it parses,
      the serialised envelope otherwise. */
  function PostProcess(response: string, codec: Codec): (r: string)
    ensures IsJson(codec, JsonSlice(response)) ==> r == JsonSlice(response)
    ensures !IsJson(codec, JsonSlice(response)) ==> r == codec.dumps(ErrorEnvelope(response))
  {
    var sliced := JsonSlice(response);
    match codec.loads(sliced)
    case Returned(_) => sliced
    case Raised(_) => codec.dumps(ErrorEnvelope(response))
  }

  /** The result is always one of two things: a piece of the response that
      parses as JSON, or the envelope around the whole response. */
  lemma PostProcessDichotomy(response: string, codec: Codec)
    ensures
      || (IsJson(codec, PostProcess(response, codec)) &&
          exists i, j :: 0 <= i <= j <= |response| && PostProcess(response, codec) == response[i..j])
      || PostProcess(response, codec) == codec.dumps(ErrorEnvelope(response))
  {
    JsonSliceIsPiece(response);
  }

  /** Without a '{' the slice is "" or "}"; when the parser rejects both,
      the envelope is returned. */
  lemma NoOpeningBraceGivesEnvelope(response: string, codec: Codec)
    requires '{' !in response
    requires !IsJson(codec, "") && !IsJson(codec, "}")
    ensures PostProcess(response, codec) == codec.dumps(ErrorEnvelope(response))
  {
  }

  // ---------------------------------------------------------------------
  // The entrypoint
  // ---------------------------------------------------------------------

  /** `langgraph_bedrock`: a failure of the graph run is not caught; the
      post-processed answer is what is saved and what is returned. */
  function Handle(
    payload: map<string, Value>, agent: Agent, system: string, codec: Codec,
    env: Option<string>, memory: MemoryClient, fuel: nat): (r: Completion<Reply>)
    ensures r.Completed? <==> RunToolLoop(agent.model, agent.tools, system, Seed(ReadPayload(payload)), fuel).Completed?
    ensures r.Crashed? <==> RunToolLoop(agent.model, agent.tools, system, Seed(ReadPayload(payload)), fuel).Crashed?
    ensures r.Crashed? ==> r.error == RunToolLoop(agent.model, agent.tools, system, Seed(ReadPayload(payload)), fuel).error
    ensures r.Completed? ==> r.value.answer == PostProcess(RunToolLoop(agent.model, agent.tools, system, Seed(ReadPayload(payload)), fuel).value.final.content, codec)
    ensures r.Completed? ==> r.value.saved == ExchangeEvent(MemoryId(env, DefaultMemoryId), ReadPayload(payload), r.value.answer)
    ensures r.Completed? ==> r.value.saveOutcome == memory(r.value.saved)
  {
    var request := ReadPayload(payload);
    RunToolLoopShape(agent.model, agent.tools, system, Seed(request), fuel);
    match RunToolLoop(agent.model, agent.tools, system, Seed(request), fuel)
    case Crashed(e) => Crashed(e)
    case OutOfFuel => OutOfFuel
    case Completed(finish) =>
      var answer := PostProcess(finish.state[|finish.state| - 1].reply.content, codec);
      var event := ExchangeEvent(MemoryId(env, DefaultMemoryId), request, answer);
      Completed(Reply(answer, event, memory(event)))
  }

  /** The memory outcome never changes what is returned or what was saved. */
  lemma AnswerIgnoresMemory(
    payload: map<string, Value>, agent: Agent, system: string, codec: Codec,
    env: Option<string>, m1: MemoryClient, m2: MemoryClient, fuel: nat)
    ensures Handle(payload, agent, system, codec, env, m1, fuel).Completed? ==>
      && Handle(payload, agent, system, codec, env, m2, fuel).Completed?
      && Handle(payload, agent, system, codec, env, m1, fuel).value.answer
         == Handle(payload, agent, system, codec, env, m2, fuel).value.answer
      && Handle(payload, agent, system, codec, env, m1, fuel).value.saved
         == Handle(payload, agent, system, codec, env, m2, fuel).value.saved
  {
  }

  /** A direct answer: a reply without tool calls is post-processed, and the
      post-processed text is both returned and saved, under the default ids
      and memory id for a bare payload. */
  lemma DirectReply(prompt: Value, agent: Agent, system: string, codec: Codec, memory: MemoryClient, fuel: nat, text: string)
    requires fuel > 0
    requires agent.model([SystemMessage(system), HumanMessage(prompt)]) == Returned(AiReply(text, []))
    ensures var r := Handle(map["prompt" := prompt], agent, system, codec, None, memory, fuel);
      && r.Completed?
      && r.value.answer == PostProcess(text, codec)
      && r.value.saved == MemoryEvent(DefaultMemoryId, DefaultUserId, DefaultSessionId,
           [(prompt, "USER"), (VStr(PostProcess(text, codec)), "ASSISTANT")])
  {
    assert WithSystemMessage(system, Seed(ReadPayload(map["prompt" := prompt]))) == [SystemMessage(system), HumanMessage(prompt)];
  }
}
